=== FILE: README.md ===
# TableTap order aggregation and cart lifecycle, modelled in Dafny

TableTap is a restaurant ordering web application. A customer scans a table's QR code,
browses a menu and adds items to a cart. The first request to the add view, even the GET that
shows the form, binds the browser session to a new order for that table. Adding the same item
again merges into the existing line, and every valid add changes the order's running total by a
quantity × price (any integer quantity is accepted, so the change can be zero or negative). The customer submits the cart. The restaurant owner sees the
submitted, uncompleted orders of their restaurants and marks them completed.

This project models that core as pure functions over an immutable database value:

- `wrappers.dfy`: `Option` and `Result`.
- `models.dfy` (module `Models`): the records `Restaurant`, `RestaurantOwner`, `Menu`,
  `Category`, `MenuItem`, `Table`, `Order` and `OrderItem`, and the database `Db` that holds them.
  It also defines `Select`, the model of a filtered query, and `WellFormed`, the integrity the
  schema enforces: foreign keys, and one line per (order, item) pair.
- `cart.dfy` (module `Cart`): the displayed cart lines (name, quantity, quantity × live price),
  their sum, and `Quantities`, the item → quantity map of one order.
- `orders.dfy` (module `Orders`): session binding, line merge and running total, cart view and
  submission, plus guarded and corrected variants used by the findings below.
- `console.dfy` (module `Console`): the owner's pending-orders list, the default pick, and completion.
- `catalog.dfy` (module `Catalog`): the "category id 0" default, and the QR step that tops up
  tables and builds the links.
- `scenario.dfy` (module `Scenario`): a worked run of the customer and owner flows.

Modelling choices:

- Prices (`Menu_Item.Price`) and totals (`Order.Total_Price`) are decimals with two places.
  They are exact integer cents here, so no rounding happens.
- A table's row with primary key `k` sits at position `k - 1` of its sequence. Keys are
  auto-incremented from 1 and the ordering core itself deletes no row. Tables with gaps are not
  representable; see "Left out".
- Every filtered query is assumed to return its rows in ascending key order, so "the first row
  of a filtered query" is the matching row with the least key. This is a modelling assumption,
  not a guarantee of the source: the models declare no `Meta.ordering`, and indexing a queryset
  adds no `ORDER BY`, so the database may return the rows in any order; see "Left out".
- `RestaurantOwner` links are a set, so the unique (owner, restaurant) pair holds by construction.
- An `Order` always names a restaurant. Its table is an `Option`, because that foreign key is nullable.
- `OrderItem.quantity` is an unbounded `int` with no lower bound. No operation requires a positive quantity.
- Each session store is modelled by its `'order_id'` value: `Sessions = map<SessionId, Id>`.
  A missing key or a stored 0 counts as unbound, as Python's truthiness test does.
- A lookup that raises `DoesNotExist` or `Http404` becomes a `Failure` value, and nothing is
  written. Every such lookup in the core happens before any write.
- The HTTP method and the form result are a parameter:
  `Request = Get | Post(quantity: Option<int>)`, where `None` is a form that does not validate.

The model follows the code, including its defects. The merge branch adds the line's new quantity
× price to the total. Nothing stops adds to a submitted order. Completion looks its target up by
raw id. The lemmas below state each defect. Where the code's own text promises more (the doc
comment at views.py:440 says the add "recalculates total"), the "Findings" table records the
discrepancy, and a corrected member states the promised property beside the as-written one.

## Model

| member | source | states |
|---|---|---|
| `Orders.ResolveOrder` | tabletapapp/views.py:442-450 | A missing item or menu fails first. A bound session reuses its order unchanged (or fails if that order row is gone). An unbound session gets exactly one appended order for `table_id` and the menu's restaurant, not completed, not submitted, total 0, and that order's id is stored in the session. |
| `Orders.FindLine` | tabletapapp/views.py:456 | The line lookup returns a position holding exactly (order, item), and it returns none only if no line has that pair. |
| `Orders.FindLineAgreesWithMap` | tabletapapp/views.py:455-460 | The lookup takes the merge branch exactly when the item is already a key of the order's quantity map. |
| `Orders.MergeLine` | tabletapapp/views.py:451-465 | The POST merge keeps the schema integrity, including one line per pair. It changes only the target order's total and the line table; the catalog, the other orders and the order's flags stay unchanged. |
| `Orders.AddNewItem` | tabletapapp/views.py:460-464 | For a new item, the order gains exactly one line, with the submitted quantity. Other items and other orders keep their quantities. The total rises by quantity × price, so a total that equalled the line sum still does. |
| `Orders.AddExistingItem` | tabletapapp/views.py:456-459 | For a repeated item, the line count is unchanged and that item's quantity rises by exactly the submitted amount. Other items and other orders are unchanged. The displayed sum rises by quantity × price, but the stored total rises by the merged quantity × price. |
| `Orders.ExistingItemLines` | tabletapapp/views.py:456-458 | On the line table alone, raising one line's quantity by q sets that item's map entry to old + q and raises that order's displayed sum by q × price. Every order keeps its line count, and every other order keeps its map. |
| `Orders.MergeBreaksTotal` | tabletapapp/views.py:459 | For an order whose total matched its lines, after a merge the stored total minus the displayed sum equals the previous quantity × price, so the order keeps matching only if that product is 0. |
| `Orders.MergeLineCorrected` | tabletapapp/views.py:440 | The merge the doc comment describes: the same lines as the code, with the total raised by the submitted quantity × price on both branches. |
| `Orders.CorrectedMergeKeepsTotal` | tabletapapp/views.py:440-441 | With the corrected merge, every add keeps the stored total equal to the sum of the displayed line prices. |
| `Orders.AddOrderItem` | tabletapapp/views.py:442-468 | Fails exactly when the binding step fails. The session is bound to an order even on GET or on an invalid form, and then nothing else changes. Other sessions keep their bindings, the catalog is untouched, and integrity is preserved. |
| `Orders.MergeLineEffect` | tabletapapp/views.py:455-464 | On either branch of the merge, the item's entry becomes old + q (or q for a new item), the other orders' maps stay, and the total rises by that resulting quantity × price. |
| `Orders.AddOrderItemPost` | tabletapapp/views.py:442-465 | A valid POST succeeds whenever binding does. The session's order then maps the item to old + q (or q for a new item), every other order keeps its row and its lines, and the order's total is its previous total (0 for a new order) plus the resulting quantity × price. |
| `Orders.FirstAddToNewOrder` | tabletapapp/models.py:157-159 | An unbound session's first valid add creates an order that is not completed and not submitted, with the single line {item ↦ quantity}. Its total is quantity × price, starting from the default 0, and matches its lines. |
| `Orders.NoLinesYet` | tabletapapp/views.py:491-497 | An order that no Order_Item row references has an empty quantity map and displays no lines. |
| `Orders.AddAfterSubmit` | tabletapapp/views.py:443-465 | A session still bound to a submitted order can add to it with a nonzero quantity: the add succeeds, the order stays submitted, and its quantities change. |
| `Orders.AddOrderItemGuarded` | tabletapapp/views.py:443-446 | The add with a state guard: a request whose binding yields a submitted order is refused with `OrderAlreadySubmitted`. A request whose binding fails, or yields an unsubmitted order, gives exactly the result of the code. |
| `Orders.GuardedAddKeepsSubmitted` | tabletapapp/views.py:451-465 | With the guard, any order that is already submitted keeps its row (flags and total) and its quantity map through every add. |
| `Orders.ViewCart` | tabletapapp/views.py:485-498 | With a bound session, the cart is available exactly when the order row exists. It shows the stored total and, in key order, one line per Order_Item row of that order, with the item's name, the row's quantity and quantity × the item's price. |
| `Orders.CartTotalByItem` | tabletapapp/views.py:490-497 | The cart's displayed prices add up to the per-item reference total (the sum over the order's item → quantity map of price × quantity). The stored total shown equals that reference exactly when the order is consistent. |
| `Orders.SubmitOrder` | tabletapapp/views.py:499-502 | Submitting sets `submitted` on the bound order and changes nothing else. The session binding is kept, and the other orders, the lines and the catalog are unchanged. |
| `Orders.SubmitIdempotent` | tabletapapp/views.py:499-501 | Submitting twice gives the same state as submitting once. |
| `Console.OwnedRestaurants` | tabletapapp/views.py:528 | The owner's restaurants are exactly those with an ownership link to the owner. |
| `Console.PendingOrders` | tabletapapp/views.py:529 | The pending list holds exactly the orders of a linked restaurant that are submitted and not completed, in ascending key order. |
| `Console.DefaultTargetIsFirstPending` | tabletapapp/views.py:533-534 | Order id 0 selects a pending order, and every order with a smaller key is not pending. |
| `Console.ViewOrders` | tabletapapp/views.py:530-543 | With nothing pending, nothing is active. Otherwise the active order is the default pick or the raw id (owned or not, pending or not). It is shown when that row exists, with one line per Order_Item row of it, in key order, giving the item's name, the quantity and quantity × price. |
| `Console.CompleteOrder` | tabletapapp/views.py:544-546 | Completion, which requires some pending order, succeeds exactly when the target row exists. It sets only `completed`; every other field and every other order is unchanged. |
| `Console.CompleteDefault` | tabletapapp/views.py:533-546 | Completing with id 0 completes a submitted order of a linked restaurant. The pending list afterwards holds exactly its other former entries. |
| `Console.CompleteUnsubmitted` | tabletapapp/views.py:535 | A raw id can complete an order that was never submitted, which breaks "completed implies submitted". |
| `Console.CompleteForeignOrder` | tabletapapp/views.py:544-545 | A raw id can complete an order of a restaurant that the owner is not linked to. |
| `Console.CompleteOrderChecked` | tabletapapp/views.py:533-535 | Completion with a state check: it succeeds exactly when the target is one of the owner's pending orders, and then it preserves "completed implies submitted". |
| `Catalog.ActiveCategory` | tabletapapp/views.py:399-405 | A missing menu fails. Id 0 yields none exactly when the menu has no category, and otherwise the menu's category with the least key. Any other id yields that category if it exists, without checking its menu, and fails otherwise. |
| `Catalog.ActiveItems` | tabletapapp/views.py:156 | With no active category, no items are listed. Otherwise exactly the items of that category are listed. |
| `Catalog.ShowMenu` | tabletapapp/views.py:399-406 | The customer menu page shows the menu's categories, the active category and its items. A menu without categories, shown with id 0, lists no items. |
| `Catalog.AddTables` | tabletapapp/views.py:366-370 | Creating the missing tables appends exactly max(n, 0) tables of the restaurant and leaves the existing rows untouched. |
| `Catalog.AddTablesSelect` | tabletapapp/views.py:365-371 | After the top-up, the restaurant's table list is its old list followed by the new keys, and every other restaurant's list is unchanged. |
| `Catalog.TopUp` | tabletapapp/views.py:364-370 | Creating the missing tables gives the restaurant max(existing, Table_Amount) tables, with its old tables first. It keeps the schema integrity, changes only the table list, and leaves every other restaurant's tables as they were. |
| `Catalog.TopUpFacts` | tabletapapp/views.py:364-371 | The top-up keeps the schema integrity and extends only this restaurant's table list. |
| `Catalog.FirstMenuAndCategory` | tabletapapp/views.py:373-378 | The menu and category of the QR links: a result names the restaurant's least-key menu and that menu's least-key category. There is none exactly when the restaurant has no menu or its least-key menu has no category. |
| `Catalog.QrCode` | tabletapapp/views.py:362-383 | Fails exactly when the restaurant is missing. Otherwise the database afterwards is the top-up's. There are max(Table_Amount, 0) links when the first menu has a category, and none otherwise. Link i names the i-th table of the topped-up list, the first menu and its first category. |
| `Cart.QuantityOfLine` | tabletapapp/models.py:181-182 | Because (order, item) pairs are unique, every line appears in its order's map under its item, with its quantity. |
| `Cart.QuantitiesCount` | tabletapapp/models.py:181-182 | Because pairs are unique, an order's item → quantity map has exactly as many entries as the order has Order_Item rows. |
| `Cart.SetQuantityLines` | tabletapapp/views.py:492-497 | Changing one line's quantity swaps that line's term in its order's displayed sum: the new sum plus old quantity × live price equals the old sum plus new quantity × price. Every other order's displayed lines are unchanged. |
| `Cart.LinesCount` | tabletapapp/views.py:491-494 | The cart shows exactly one line per Order_Item row of the order. |
| `Cart.LinesShowRows` | tabletapapp/views.py:491-497 | Line k of the cart shows the k-th Order_Item row of the order, in key order: its item's name, its quantity, and quantity × the item's price. |
| `Cart.LinesSumByItem` | tabletapapp/models.py:181-182 | Because (order, item) pairs are unique, the sum of an order's displayed line prices equals the reference total: the sum over its item → quantity map of the item's price × the quantity. |
| `Cart.SumAfterAppend` | tabletapapp/views.py:493 | A new line adds its quantity × its item's price to its order's displayed sum. |
| `Scenario.MergeOvercharges` | tabletapapp/views.py:456-464 | A at 5.00 ×2, then A ×1, then B at 3.50 ×1: the lines are {A ↦ 3, B ↦ 1} and display 18.50, but the stored total is 28.50. |
| `Scenario.SubmitThenComplete` | tabletapapp/views.py:499-546 | After submit and a completion with id 0, the order is submitted and completed and the owner has nothing pending. A second completion POST therefore reaches the failure path. |

## Findings

| source | as written | input that shows it | evidently intended | confidence | as-written member | corrected member |
|---|---|---|---|---|---|---|
| tabletapapp/views.py:459 | On a repeated item, the total grows by the line's merged quantity × price | Item A at 500 cents, added with quantity 2 (total 1000), then again with quantity 1: total 2500, while the line shows 3 × 500 = 1500 | Grow by the added quantity × price, so the total stays the sum of the lines (doc comment at line 440) | not executed | `Orders.MergeBreaksTotal` | `Orders.MergeLineCorrected` |
| tabletapapp/views.py:443-465 | add_order_item has no state check, and view_cart keeps the session binding after submit | Submit the cart, then POST another add of any item with quantity 1: the submitted order's quantities change | Refuse to mutate a submitted order | not executed | `Orders.AddAfterSubmit` | `Orders.AddOrderItemGuarded` |
| tabletapapp/views.py:535 | The completion target is fetched by raw id, without checking that it is pending | While another order is pending, POST completion with the id of an unsubmitted order: it becomes completed but not submitted | Complete only a submitted, uncompleted order of the owner's | not executed | `Console.CompleteUnsubmitted` | `Console.CompleteOrderChecked` |

The corrected members each carry their own proof. For the totals, this is
`Orders.CorrectedMergeKeepsTotal`. For the add guard, it is `Orders.GuardedAddKeepsSubmitted`.
For completion, it is the invariant clause of `Console.CompleteOrderChecked`. The request-level
`Orders.AddOrderItem` and `Console.CompleteOrder` keep the as-written behaviour, because they
model the views as they are.

## Left out

- HTTP handling, template rendering, redirects and the URL routes: these are web-layer glue. Each view is modelled by the state it reads and writes.
- view_cart with no bound order: the source reads an undefined `order` (views.py:500 and 514). This is a precondition of `Orders.ViewCart` and `Orders.SubmitOrder`.
- view_order POST with nothing pending: the source writes to a list (views.py:531 and 545). This is a precondition of `Console.CompleteOrder`.
- view_cart's menu-id-0 fallback (views.py:503-507): on a GET with menu id 0 it looks up the restaurant (views.py:504) and takes its first menu (views.py:506), so the page also aborts when that restaurant is missing or has no menu. `Orders.ViewCart` takes no menu or restaurant id, so its success condition ignores this fallback. The POST path (`Orders.SubmitOrder`) returns at views.py:502, before the fallback.
- Persistence, `save()`, and the `auto_now`/`auto_now_add` timestamps: ORM plumbing. Concurrent requests are also out; the code has no concurrency logic.
- `login_required` and the `get_object_or_404(Restaurant_Owner, ...)` authorisation checks in dashboard and qr_code. The owner's identity is a parameter; their restaurants come from the ownership links.
- QR image generation and the link URL text: only the table, menu and category keys of each link are modelled.
- The owner-facing create/update/delete views, forms.py, admin.py, apps.py and both urls.py files: these are declarations and thin ORM wrappers, with no order logic.
- `Owner.save`'s default-user creation (models.py:31-35): framework side effect.
- Decimal field widths (`max_digits` 8 and 10): amounts are unbounded integers. A total too large for the column is not modelled.
- `Order_Item.Quantity` is an `IntegerField` (models.py:179), a bounded column. A merged quantity that overflows it at `save()` (views.py:458) is not modelled; quantities are unbounded integers.
- Rows deleted by cascade (models.py:177-178), by the admin site (admin.py:60-68) or by the owner's delete views: the "key k at position k - 1" layout has no gaps, so tables with deleted rows are not represented. The contracts that fail "exactly when the row is missing" cover only tables without gaps: the `OrderNotFound` case of `Orders.ResolveOrder`, the `CategoryNotFound` case of `Catalog.ActiveCategory`, `Orders.ViewCart` and `Console.CompleteOrder`.
- Queryset order: `orders[0]` (views.py:534), `categories[0]` (views.py:152 and 402), `menu[0]` and `categories[0]` (views.py:375 and 378), `tables[i]` (views.py:380) and the cart and order line lists (views.py:491 and 536) index or iterate querysets that have no ordering, so the source does not fix which row comes first. The model takes ascending key order instead. Its "least key", "ascending key order", "in key order" and "i-th table" clauses rest on that assumption: `Console.PendingOrders`, `Console.DefaultTargetIsFirstPending`, `Console.ViewOrders`, `Orders.ViewCart`, `Cart.LinesShowRows`, `Catalog.ActiveCategory`, `Catalog.FirstMenuAndCategory` and `Catalog.QrCode`. The order-independent facts hold whatever the order, for example set membership in `Console.PendingOrders`, and the per-item total in `Cart.LinesSumByItem` and `Orders.CartTotalByItem`.
- Price changes after an item was added: the model has no catalog edits. The cart still prices each line live from the item row, as the source does.
- `Catalog.QrCode`: when Table_Amount is negative, `range` yields no links, so the link count is max(Table_Amount, 0) rather than Table_Amount itself.

=== FILE: cart.dfy ===
/**
 The lines of an order as the cart and the owner's order view display them
 (tabletapapp/views.py, view_cart and view_order), and the item-to-quantity map they
 amount to when each (order, item) pair has at most one line.
 */
module Cart {
  import opened Models

  /** One displayed line: the item's name, the line quantity and quantity times the live price. */
  datatype CartLine = CartLine(name: string, quantity: int, price: Cents)

  /** Every line refers to an existing item. */
  predicate ItemsExist(items: seq<MenuItem>, rows: seq<OrderItem>) {
    forall i :: 0 <= i < |rows| ==> Valid(items, rows[i].item)
  }

  /** The filter `Order_Item.objects.filter(Order_ID=o)`. */
  function OfOrder(o: Id): OrderItem -> bool {
    (x: OrderItem) => x.order == o
  }

  function LineView(items: seq<MenuItem>, row: OrderItem): CartLine
    requires Valid(items, row.item)
  {
    var item := items[row.item - 1];
    CartLine(item.name, row.quantity, item.price * row.quantity)
  }

  /** The displayed lines of order `o`, in line-creation order; one per Order_Item row of `o`. */
  function LinesOf(items: seq<MenuItem>, rows: seq<OrderItem>, o: Id): (lines: seq<CartLine>)
    requires ItemsExist(items, rows)
  {
    if |rows| == 0 then []
    else
      var last := rows[|rows| - 1];
      LinesOf(items, rows[..|rows| - 1], o) + (if last.order == o then [LineView(items, last)] else [])
  }

  /** Each Order_Item row of `o` gives exactly one displayed line. */
  lemma {:induction false} LinesCount(items: seq<MenuItem>, rows: seq<OrderItem>, o: Id)
    requires ItemsExist(items, rows)
    ensures |LinesOf(items, rows, o)| == |Select(rows, OfOrder(o))|
    decreases |rows|
  {
    if |rows| > 0 {
      ItemsExistPrefix(items, rows, |rows| - 1);
      LinesCount(items, rows[..|rows| - 1], o);
    }
  }

  /** The sum of the displayed line prices. */
  function Sum(lines: seq<CartLine>): Cents {
    if |lines| == 0 then 0 else Sum(lines[..|lines| - 1]) + lines[|lines| - 1].price
  }

  lemma SumSingle(line: CartLine)
    ensures Sum([line]) == line.price
  {
    assert [line][..0] == [];
  }

  lemma {:induction false} SumAppend(a: seq<CartLine>, b: seq<CartLine>)
    ensures Sum(a + b) == Sum(a) + Sum(b)
  {
    if |b| == 0 {
      assert a + b == a;
    } else {
      assert (a + b)[..|a + b| - 1] == a + b[..|b| - 1];
      SumAppend(a, b[..|b| - 1]);
    }
  }

  /** A new line appended to the table shows up as the last displayed line of its order only. */
  lemma LinesAppend(items: seq<MenuItem>, rows: seq<OrderItem>, x: OrderItem, o: Id)
    requires ItemsExist(items, rows) && Valid(items, x.item)
    ensures ItemsExist(items, rows + [x])
    ensures LinesOf(items, rows + [x], o) == LinesOf(items, rows, o) + (if x.order == o then [LineView(items, x)] else [])
  {
    assert forall i :: 0 <= i < |rows| ==> rows[i] == (rows + [x])[i];
    assert (rows + [x])[..|rows|] == rows;
  }

  /** A new line of `o` adds its quantity times its item's price to the displayed sum of `o`. */
  lemma SumAfterAppend(items: seq<MenuItem>, rows: seq<OrderItem>, x: OrderItem)
    requires ItemsExist(items, rows) && Valid(items, x.item)
    ensures ItemsExist(items, rows + [x])
    ensures Sum(LinesOf(items, rows + [x], x.order)) == Sum(LinesOf(items, rows, x.order)) + items[x.item - 1].price * x.quantity
  {
    LinesAppend(items, rows, x, x.order);
    SumAppend(LinesOf(items, rows, x.order), [LineView(items, x)]);
    SumSingle(LineView(items, x));
  }

  /** The table with the quantity of line `i` replaced by `q`. */
  function SetQuantity(rows: seq<OrderItem>, i: nat, q: int): (r: seq<OrderItem>)
    requires i < |rows|
  {
    rows[i := rows[i].(quantity := q)]
  }

  /** Every prefix of a table whose lines refer to existing items has the same property. */
  lemma ItemsExistPrefix(items: seq<MenuItem>, rows: seq<OrderItem>, k: nat)
    requires ItemsExist(items, rows) && k <= |rows|
    ensures ItemsExist(items, rows[..k])
  {
    assert forall j :: 0 <= j < k ==> rows[..k][j] == rows[j];
  }

  /** Changing a quantity keeps every line's item, so the lines still refer to existing items. */
  lemma SetQuantityItemsExist(items: seq<MenuItem>, rows: seq<OrderItem>, i: nat, q: int)
    requires i < |rows| && ItemsExist(items, rows)
    ensures ItemsExist(items, SetQuantity(rows, i, q))
  {
    var rows' := SetQuantity(rows, i, q);
    forall j | 0 <= j < |rows| ensures Valid(items, rows'[j].item) {
      assert rows'[j].item == rows[j].item;
    }
  }

  /** Changing the quantity of a line of another order leaves the displayed lines of `o` as they were. */
  lemma {:induction false} SetQuantityOther(items: seq<MenuItem>, rows: seq<OrderItem>, i: nat, q: int, o: Id)
    requires i < |rows| && ItemsExist(items, rows) && o != rows[i].order
    ensures ItemsExist(items, SetQuantity(rows, i, q))
    ensures LinesOf(items, SetQuantity(rows, i, q), o) == LinesOf(items, rows, o)
    decreases |rows|
  {
    SetQuantityItemsExist(items, rows, i, q);
    var rows' := SetQuantity(rows, i, q);
    var n := |rows|;
    ItemsExistPrefix(items, rows, n - 1);
    ItemsExistPrefix(items, rows', n - 1);
    if i == n - 1 {
      assert rows'[..n - 1] == rows[..n - 1];
      assert rows'[n - 1].order != o && rows[n - 1].order != o;
    } else {
      assert rows'[..n - 1] == SetQuantity(rows[..n - 1], i, q);
      SetQuantityOther(items, rows[..n - 1], i, q, o);
      assert rows'[n - 1] == rows[n - 1];
    }
  }

  /** Multiplication distributes over a sum of quantities. */
  lemma MulAdd(p: int, a: int, b: int)
    ensures p * (a + b) == p * a + p * b
  {
  }

  /** The displayed sum of `o`, peeled at the last row of the table. */
  lemma SumLinesLast(items: seq<MenuItem>, rows: seq<OrderItem>, o: Id)
    requires |rows| > 0 && ItemsExist(items, rows)
    ensures ItemsExist(items, rows[..|rows| - 1])
    ensures Sum(LinesOf(items, rows, o)) == Sum(LinesOf(items, rows[..|rows| - 1], o))
      + (if rows[|rows| - 1].order == o then LineView(items, rows[|rows| - 1]).price else 0)
  {
    var n := |rows|;
    ItemsExistPrefix(items, rows, n - 1);
    var tail := if rows[n - 1].order == o then [LineView(items, rows[n - 1])] else [];
    SumAppend(LinesOf(items, rows[..n - 1], o), tail);
    if rows[n - 1].order == o {
      SumSingle(LineView(items, rows[n - 1]));
    }
  }

  /**
   Changing the quantity of a line of `o` replaces that line's displayed price in the sum of `o`
   and leaves the other terms as they were.
   */
  lemma {:induction false} SetQuantitySum(items: seq<MenuItem>, rows: seq<OrderItem>, i: nat, q: int)
    requires i < |rows| && ItemsExist(items, rows)
    ensures ItemsExist(items, SetQuantity(rows, i, q))
    ensures Sum(LinesOf(items, SetQuantity(rows, i, q), rows[i].order)) + LineView(items, rows[i]).price
      == Sum(LinesOf(items, rows, rows[i].order)) + LineView(items, rows[i].(quantity := q)).price
    decreases |rows|
  {
    SetQuantityItemsExist(items, rows, i, q);
    var rows' := SetQuantity(rows, i, q);
    var o := rows[i].order;
    var n := |rows|;
    SumLinesLast(items, rows, o);
    SumLinesLast(items, rows', o);
    if i == n - 1 {
      assert rows'[..n - 1] == rows[..n - 1];
      assert rows'[n - 1] == rows[i].(quantity := q);
    } else {
      assert rows'[..n - 1] == SetQuantity(rows[..n - 1], i, q);
      assert rows[..n - 1][i] == rows[i];
      SetQuantitySum(items, rows[..n - 1], i, q);
      assert rows'[n - 1] == rows[n - 1];
    }
  }

  /**
   Changing the quantity of one line replaces that line's term in its order's displayed sum:
   the sum plus the old quantity times the item price equals the old sum plus the new quantity
   times the price. Every other order's lines stay as they were.
   */
  lemma SetQuantityLines(items: seq<MenuItem>, rows: seq<OrderItem>, i: nat, q: int, o: Id)
    requires i < |rows| && ItemsExist(items, rows)
    ensures ItemsExist(items, SetQuantity(rows, i, q))
    ensures o != rows[i].order ==> LinesOf(items, SetQuantity(rows, i, q), o) == LinesOf(items, rows, o)
    ensures o == rows[i].order ==>
      Sum(LinesOf(items, SetQuantity(rows, i, q), o)) + items[rows[i].item - 1].price * rows[i].quantity
      == Sum(LinesOf(items, rows, o)) + items[rows[i].item - 1].price * q
  {
    if o == rows[i].order {
      SetQuantitySum(items, rows, i, q);
    } else {
      SetQuantityOther(items, rows, i, q, o);
    }
  }

  /** Changing a quantity keeps every order's number of lines. */
  lemma {:induction false} SetQuantityCount(rows: seq<OrderItem>, i: nat, q: int, o: Id)
    requires i < |rows|
    ensures |Select(SetQuantity(rows, i, q), OfOrder(o))| == |Select(rows, OfOrder(o))|
    decreases |rows|
  {
    var rows' := SetQuantity(rows, i, q);
    var n := |rows|;
    if i == n - 1 {
      assert rows'[..n - 1] == rows[..n - 1];
    } else {
      assert rows'[..n - 1] == SetQuantity(rows[..n - 1], i, q);
      SetQuantityCount(rows[..n - 1], i, q, o);
    }
  }

  /** The order's lines as a map from item to quantity (the last line wins for a repeated item). */
  function Quantities(rows: seq<OrderItem>, o: Id): (m: map<Id, int>)
  {
    if |rows| == 0 then map[]
    else
      var prefix := rows[..|rows| - 1];
      var last := rows[|rows| - 1];
      var m := Quantities(prefix, o);
      assert forall j :: 0 <= j < |prefix| ==> prefix[j] == rows[j];
      if last.order == o then m[last.item := last.quantity] else m
  }

  /** The item of every line of `o` is a key of the map. */
  lemma {:induction false} QuantitiesHasLine(rows: seq<OrderItem>, j: nat, o: Id)
    requires j < |rows| && rows[j].order == o
    ensures rows[j].item in Quantities(rows, o)
    decreases |rows|
  {
    var n := |rows|;
    if j < n - 1 {
      assert rows[..n - 1][j] == rows[j];
      QuantitiesHasLine(rows[..n - 1], j, o);
    }
  }

  /** Every key of the map is the item of some line of `o`. */
  lemma {:induction false} QuantitiesKeys(rows: seq<OrderItem>, o: Id, it: Id)
    requires it in Quantities(rows, o)
    ensures exists j :: 0 <= j < |rows| && rows[j].order == o && rows[j].item == it
    decreases |rows|
  {
    var n := |rows|;
    var prefix := rows[..n - 1];
    if !(rows[n - 1].order == o && rows[n - 1].item == it) {
      QuantitiesKeys(prefix, o, it);
      var j :| 0 <= j < |prefix| && prefix[j].order == o && prefix[j].item == it;
      assert rows[j] == prefix[j];
    }
  }

  /** Each line of `o` is found in the map under its item with its quantity. */
  lemma {:induction false} QuantityOfLine(rows: seq<OrderItem>, j: nat, o: Id)
    requires UniqueLines(rows) && j < |rows| && rows[j].order == o
    ensures rows[j].item in Quantities(rows, o) && Quantities(rows, o)[rows[j].item] == rows[j].quantity
    decreases |rows|
  {
    var n := |rows|;
    var prefix := rows[..n - 1];
    if j < n - 1 {
      assert prefix[j] == rows[j];
      QuantityOfLine(prefix, j, o);
      assert rows[n - 1].order == o ==> rows[n - 1].item != rows[j].item;
    }
  }

  /**
   With one line per (order, item), the map has exactly as many entries as the order has lines,
   so the line table of an order and its item-to-quantity map carry the same information.
   */
  lemma {:induction false} QuantitiesCount(rows: seq<OrderItem>, o: Id)
    requires UniqueLines(rows)
    ensures |Quantities(rows, o)| == |Select(rows, OfOrder(o))|
    decreases |rows|
  {
    if |rows| > 0 {
      var n := |rows|;
      var prefix := rows[..n - 1];
      var last := rows[n - 1];
      assert forall j :: 0 <= j < |prefix| ==> prefix[j] == rows[j];
      QuantitiesCount(prefix, o);
      if last.order == o && last.item in Quantities(prefix, o) {
        QuantitiesKeys(prefix, o, last.item);
      }
    }
  }

  /** Appending a line for an item the order does not have yet adds that one entry to the map. */
  lemma QuantitiesAppend(rows: seq<OrderItem>, x: OrderItem)
    ensures x.item !in Quantities(rows, x.order) ==>
      Quantities(rows + [x], x.order) == Quantities(rows, x.order)[x.item := x.quantity]
    ensures forall o :: o != x.order ==> Quantities(rows + [x], o) == Quantities(rows, o)
  {
    assert (rows + [x])[..|rows|] == rows;
  }

  /** Setting the quantity of one line updates that single entry of its order's map. */
  lemma {:induction false} SetQuantityMap(rows: seq<OrderItem>, i: nat, q: int, o: Id)
    requires UniqueLines(rows) && i < |rows|
    ensures o == rows[i].order ==> Quantities(SetQuantity(rows, i, q), o) == Quantities(rows, o)[rows[i].item := q]
    ensures o != rows[i].order ==> Quantities(SetQuantity(rows, i, q), o) == Quantities(rows, o)
    decreases |rows|
  {
    var rows' := SetQuantity(rows, i, q);
    var n := |rows|;
    var prefix, prefix' := rows[..n - 1], rows'[..n - 1];
    var last := rows[n - 1];
    if i == n - 1 {
      assert prefix' == prefix;
    } else {
      assert prefix' == SetQuantity(prefix, i, q);
      assert UniqueLines(prefix) by {
        assert forall j :: 0 <= j < n - 1 ==> prefix[j] == rows[j];
      }
      SetQuantityMap(prefix, i, q, o);
      assert rows'[n - 1] == last;
      var m: map<Id, int>, m': map<Id, int> := Quantities(prefix, o), Quantities(prefix', o);
      if last.order == o && o == rows[i].order {
        assert last.item != rows[i].item;
        assert m'[last.item := last.quantity] == m[last.item := last.quantity][rows[i].item := q];
      }
    }
  }

  /**
   What the cart and the owner's order view list for order `o`: one line per Order_Item row of
   `o`, in key order, showing that row's item name, its quantity and quantity times live price.
   */
  predicate ShowsRows(items: seq<MenuItem>, rows: seq<OrderItem>, o: Id, lines: seq<CartLine>)
    requires ItemsExist(items, rows)
  {
    var ids := Select(rows, OfOrder(o));
    && |lines| == |ids|
    && forall k :: 0 <= k < |ids| ==> Valid(rows, ids[k]) && lines[k] == LineView(items, rows[ids[k] - 1])
  }

  /** The displayed lines of `o` are exactly its rows, each shown through LineView. */
  lemma {:induction false} LinesShowRows(items: seq<MenuItem>, rows: seq<OrderItem>, o: Id)
    requires ItemsExist(items, rows)
    ensures ShowsRows(items, rows, o, LinesOf(items, rows, o))
    decreases |rows|
  {
    if |rows| > 0 {
      var n := |rows|;
      var prefix := rows[..n - 1];
      ItemsExistPrefix(items, rows, n - 1);
      LinesShowRows(items, prefix, o);
      var ids, ids' := Select(prefix, OfOrder(o)), Select(rows, OfOrder(o));
      var lines, lines' := LinesOf(items, prefix, o), LinesOf(items, rows, o);
      assert ids' == ids + (if rows[n - 1].order == o then [n] else []);
      assert lines' == lines + (if rows[n - 1].order == o then [LineView(items, rows[n - 1])] else []);
      forall k | 0 <= k < |ids'|
        ensures Valid(rows, ids'[k]) && lines'[k] == LineView(items, rows[ids'[k] - 1])
      {
        if k < |ids| {
          assert ids'[k] == ids[k] && lines'[k] == lines[k];
          assert prefix[ids[k] - 1] == rows[ids[k] - 1];
        }
      }
    }
  }

  /**
   A reference total that does not depend on the order of the lines: over the item keys 1..n,
   each item's price times its quantity in the map, and nothing for items the map lacks.
   */
  function ItemsTotal(items: seq<MenuItem>, m: map<Id, int>, n: nat): Cents
    requires n <= |items|
  {
    if n == 0 then 0
    else ItemsTotal(items, m, n - 1) + (if n in m then items[n - 1].price * m[n] else 0)
  }

  /** An empty map totals nothing. */
  lemma {:induction false} ItemsTotalEmpty(items: seq<MenuItem>, n: nat)
    requires n <= |items|
    ensures ItemsTotal(items, map[], n) == 0
  {
    if n > 0 {
      ItemsTotalEmpty(items, n - 1);
    }
  }

  /** A new entry k ↦ v adds v times the price of item k, once k is within range. */
  lemma {:induction false} ItemsTotalAdd(items: seq<MenuItem>, m: map<Id, int>, n: nat, k: Id, v: int)
    requires n <= |items| && 1 <= k && k !in m
    ensures ItemsTotal(items, m[k := v], n) == ItemsTotal(items, m, n) + (if k <= n then items[k - 1].price * v else 0)
  {
    if n > 0 {
      ItemsTotalAdd(items, m, n - 1, k, v);
    }
  }

  /** An item no line of `o` names is not a key of the map. */
  lemma {:induction false} QuantitiesAbsent(rows: seq<OrderItem>, o: Id, it: Id)
    requires forall j :: 0 <= j < |rows| ==> rows[j].order != o || rows[j].item != it
    ensures it !in Quantities(rows, o)
    decreases |rows|
  {
    if |rows| > 0 {
      var prefix := rows[..|rows| - 1];
      assert forall j :: 0 <= j < |prefix| ==> prefix[j] == rows[j];
      QuantitiesAbsent(prefix, o, it);
    }
  }

  /**
   With one line per (order, item), the displayed sum of `o` equals the per-item reference total
   of its quantity map: the cart's prices add up whatever order the lines were created in.
   */
  lemma {:induction false} LinesSumByItem(items: seq<MenuItem>, rows: seq<OrderItem>, o: Id)
    requires ItemsExist(items, rows) && UniqueLines(rows)
    ensures Sum(LinesOf(items, rows, o)) == ItemsTotal(items, Quantities(rows, o), |items|)
    decreases |rows|
  {
    if |rows| == 0 {
      ItemsTotalEmpty(items, |items|);
    } else {
      var n := |rows|;
      var prefix := rows[..n - 1];
      var last := rows[n - 1];
      assert forall j :: 0 <= j < n - 1 ==> prefix[j] == rows[j];
      assert UniqueLines(prefix);
      SumLinesLast(items, rows, o);
      LinesSumByItem(items, prefix, o);
      if last.order == o {
        QuantitiesAbsent(prefix, o, last.item);
        assert Valid(items, last.item);
        ItemsTotalAdd(items, Quantities(prefix, o), |items|, last.item, last.quantity);
      }
    }
  }
}

=== FILE: catalog.dfy ===
/**
 The two selection policies the customer and owner pages rely on (tabletapapp/views.py):
 category id 0 meaning "the menu's first category, if any", and the QR step that tops up a
 restaurant's tables and builds one link per table.
 */
module Catalog {
  import opened Wrappers
  import opened Models

  /** `get_object_or_404` or `objects.get` found no row. */
  datatype Error = MenuNotFound | CategoryNotFound | RestaurantNotFound

  function OfMenu(menuId: Id): Category -> bool {
    (c: Category) => c.menu == menuId
  }

  function OfCategory(categoryId: Id): MenuItem -> bool {
    (it: MenuItem) => it.category == categoryId
  }

  /**
   The active category of a menu page. Id 0 picks the menu's first category, or none when the
   menu has no categories; any other id picks that category, without checking its menu.
   */
  function ActiveCategory(db: Db, menuId: Id, categoryId: Id): (r: Result<Option<Id>, Error>)
    ensures !Valid(db.menus, menuId) ==> r == Failure(MenuNotFound)
    ensures Valid(db.menus, menuId) && categoryId == 0 ==>
      && r.Success?
      && (r.value.None? <==> forall i :: 0 <= i < |db.categories| ==> db.categories[i].menu != menuId)
      && (r.value.Some? ==>
        && Valid(db.categories, r.value.value)
        && db.categories[r.value.value - 1].menu == menuId
        && forall i :: 0 <= i < r.value.value - 1 ==> db.categories[i].menu != menuId)
    ensures Valid(db.menus, menuId) && categoryId != 0 ==>
      r == (if Valid(db.categories, categoryId) then Success(Some(categoryId)) else Failure(CategoryNotFound))
  {
    if !Valid(db.menus, menuId) then Failure(MenuNotFound)
    else if categoryId == 0 then
      var categories := Select(db.categories, OfMenu(menuId));
      SelectEmpty(db.categories, OfMenu(menuId));
      if |categories| == 0 then Success(None)
      else
        SelectFirst(db.categories, OfMenu(menuId));
        Success(Some(categories[0]))
    else if Valid(db.categories, categoryId) then Success(Some(categoryId))
    else Failure(CategoryNotFound)
  }

  /** The items listed for the active category: none without one, else exactly that category's. */
  function ActiveItems(db: Db, active: Option<Id>): (ids: seq<Id>)
    ensures active.None? ==> ids == []
    ensures active.Some? ==> forall id :: id in ids <==> Valid(db.items, id) && db.items[id - 1].category == active.value
  {
    match active
    case None => []
    case Some(c) => Select(db.items, OfCategory(c))
  }

  /** What a menu page shows: the menu's categories, the active one and its items. */
  datatype MenuPage = MenuPage(categories: seq<Id>, active: Option<Id>, items: seq<Id>)

  /**
   The menu page of customer_menu (and, after its ownership check, of dashboard). A menu
   without categories shown with id 0 lists no items.
   */
  function ShowMenu(db: Db, menuId: Id, categoryId: Id): (r: Result<MenuPage, Error>)
    ensures r.Success? <==> ActiveCategory(db, menuId, categoryId).Success?
    ensures r.Success? ==>
      && r.value.categories == Select(db.categories, OfMenu(menuId))
      && r.value.active == ActiveCategory(db, menuId, categoryId).value
      && r.value.items == ActiveItems(db, r.value.active)
    ensures r.Success? && categoryId == 0 && |r.value.categories| == 0 ==> r.value.active.None? && r.value.items == []
  {
    match ActiveCategory(db, menuId, categoryId)
    case Failure(e) => Failure(e)
    case Success(active) =>
      SelectEmpty(db.categories, OfMenu(menuId));
      Success(MenuPage(Select(db.categories, OfMenu(menuId)), active, ActiveItems(db, active)))
  }

  function OfRestaurant(restaurantId: Id): Table -> bool {
    (t: Table) => t.restaurant == restaurantId
  }

  /** The table list with `n` new tables of the restaurant appended (none when n <= 0). */
  function AddTables(tables: seq<Table>, restaurantId: Id, n: int): (r: seq<Table>)
    ensures |r| == |tables| + (if n > 0 then n else 0)
    ensures r[..|tables|] == tables
    ensures forall i :: |tables| <= i < |r| ==> r[i] == Table(restaurantId)
    decreases n
  {
    if n <= 0 then tables else AddTables(tables + [Table(restaurantId)], restaurantId, n - 1)
  }

  /**
   Appending `n` tables of a restaurant adds the keys of the new rows to that restaurant's
   table list and leaves every other restaurant's list as it was.
   */
  lemma {:induction false} AddTablesSelect(tables: seq<Table>, restaurantId: Id, n: nat, other: Id)
    ensures Select(AddTables(tables, restaurantId, n), OfRestaurant(restaurantId))
      == Select(tables, OfRestaurant(restaurantId)) + seq(n, k => |tables| + 1 + k)
    ensures other != restaurantId ==>
      Select(AddTables(tables, restaurantId, n), OfRestaurant(other)) == Select(tables, OfRestaurant(other))
    decreases n
  {
    if n > 0 {
      var next := tables + [Table(restaurantId)];
      SelectAppend(tables, Table(restaurantId), OfRestaurant(restaurantId));
      SelectAppend(tables, Table(restaurantId), OfRestaurant(other));
      AddTablesSelect(next, restaurantId, n - 1, other);
      assert [|tables| + 1] + seq(n - 1, k => |next| + 1 + k) == seq(n, k => |tables| + 1 + k);
    }
  }

  /** One QR link: a table, the restaurant's first menu and that menu's first category. */
  datatype Link = Link(table: Id, menu: Id, category: Id)

  datatype QrPage = QrPage(db: Db, links: seq<Link>)

  /** One link per listed table, all to the same menu and category. */
  function Links(tables: seq<Id>, menu: Id, category: Id): (links: seq<Link>)
    ensures |links| == |tables|
    ensures forall i :: 0 <= i < |tables| ==> links[i] == Link(tables[i], menu, category)
  {
    seq(|tables|, i requires 0 <= i < |tables| => Link(tables[i], menu, category))
  }

  function OfOwner(restaurantId: Id): Menu -> bool {
    (m: Menu) => m.restaurant == restaurantId
  }

  /**
   The menu and category every QR link names: the restaurant's first menu and that menu's first
   category. There is none exactly when the restaurant has no menu or its first menu has no
   category.
   */
  function FirstMenuAndCategory(db: Db, restaurantId: Id): (r: Option<(Id, Id)>)
    ensures r.Some? ==>
      IsFirst(db.menus, OfOwner(restaurantId), r.value.0) && IsFirst(db.categories, OfMenu(r.value.0), r.value.1)
    ensures r.None? <==> forall m :: IsFirst(db.menus, OfOwner(restaurantId), m) ==>
      forall j :: 0 <= j < |db.categories| ==> db.categories[j].menu != m
  {
    var menus := Select(db.menus, OfOwner(restaurantId));
    FirstIsSelectFirst(db.menus, OfOwner(restaurantId));
    if |menus| == 0 then None
    else
      var categories := Select(db.categories, OfMenu(menus[0]));
      SelectFirst(db.menus, OfOwner(restaurantId));
      SelectEmpty(db.categories, OfMenu(menus[0]));
      if |categories| == 0 then None
      else
        SelectFirst(db.categories, OfMenu(menus[0]));
        Some((menus[0], categories[0]))
  }

  /**
   The first half of qr_code: create the tables the restaurant is missing so that it has at
   least its table amount, never removing one and touching no other restaurant's tables.
   */
  function TopUp(db: Db, restaurantId: Id): (r: Db)
    requires WellFormed(db) && Valid(db.restaurants, restaurantId)
    ensures var amount := db.restaurants[restaurantId - 1].tableAmount;
      var before := Select(db.tables, OfRestaurant(restaurantId));
      var after := Select(r.tables, OfRestaurant(restaurantId));
      && WellFormed(r)
      && r == db.(tables := r.tables)
      && |r.tables| >= |db.tables|
      && r.tables[..|db.tables|] == db.tables
      && |after| == (if |before| < amount then amount else |before|)
      && after[..|before|] == before
      && (forall other :: other != restaurantId ==>
            Select(r.tables, OfRestaurant(other)) == Select(db.tables, OfRestaurant(other)))
  {
    var amount := db.restaurants[restaurantId - 1].tableAmount;
    var before := Select(db.tables, OfRestaurant(restaurantId));
    var missing := if |before| < amount then amount - |before| else 0;
    TopUpFacts(db, restaurantId, missing);
    db.(tables := AddTables(db.tables, restaurantId, missing))
  }

  /**
   qr_code: top the restaurant's tables up to its table amount, then build one link per table
   amount when the first menu has a category, and none otherwise.
   */
  function QrCode(db: Db, restaurantId: Id): (r: Result<QrPage, Error>)
    requires WellFormed(db)
    ensures r.Success? <==> Valid(db.restaurants, restaurantId)
    ensures r.Success? ==>
      var amount := db.restaurants[restaurantId - 1].tableAmount;
      var after := Select(r.value.db.tables, OfRestaurant(restaurantId));
      && r.value.db == TopUp(db, restaurantId)
      && |r.value.links| == (if FirstMenuAndCategory(db, restaurantId).Some? && amount > 0 then amount else 0)
      && forall i :: 0 <= i < |r.value.links| ==>
           && r.value.links[i].table == after[i]
           && (r.value.links[i].menu, r.value.links[i].category) == FirstMenuAndCategory(db, restaurantId).value
  {
    if !Valid(db.restaurants, restaurantId) then Failure(RestaurantNotFound)
    else
      var amount := db.restaurants[restaurantId - 1].tableAmount;
      var db' := TopUp(db, restaurantId);
      var after := Select(db'.tables, OfRestaurant(restaurantId));
      match FirstMenuAndCategory(db, restaurantId)
      case None => Success(QrPage(db', []))
      case Some(mc) =>
        var n := if amount > 0 then amount else 0;
        Success(QrPage(db', Links(after[..n], mc.0, mc.1)))
  }

  /** Adding the missing tables keeps the schema's integrity and extends only this restaurant's list. */
  lemma TopUpFacts(db: Db, restaurantId: Id, missing: nat)
    requires WellFormed(db) && Valid(db.restaurants, restaurantId)
    ensures var db' := db.(tables := AddTables(db.tables, restaurantId, missing));
      var before := Select(db.tables, OfRestaurant(restaurantId));
      var after := Select(db'.tables, OfRestaurant(restaurantId));
      && WellFormed(db')
      && after == before + seq(missing, k => |db.tables| + 1 + k)
      && (forall other :: other != restaurantId ==>
            Select(db'.tables, OfRestaurant(other)) == Select(db.tables, OfRestaurant(other)))
  {
    var tables := AddTables(db.tables, restaurantId, missing);
    assert forall i :: 0 <= i < |db.tables| ==> tables[i] == db.tables[i] by {
      assert tables[..|db.tables|] == db.tables;
    }
    forall other | other != restaurantId
      ensures Select(tables, OfRestaurant(other)) == Select(db.tables, OfRestaurant(other))
    {
      AddTablesSelect(db.tables, restaurantId, missing, other);
    }
    AddTablesSelect(db.tables, restaurantId, missing, restaurantId);
  }
}

=== FILE: console.dfy ===
/**
 The owner's order console (view_order in tabletapapp/views.py): the pending-orders list over
 the owner's restaurants, the choice of the order shown, and marking an order completed.
 */
module Console {
  import opened Wrappers
  import opened Models
  import opened Cart

  /** `Order.objects.get(id=order_id)` found no row. */
  datatype Error = OrderNotFound | InvalidTransition

  /** The restaurants an owner is linked to: `owner.Restaurants.all()`. */
  function OwnedRestaurants(db: Db, owner: OwnerId): (rs: set<Id>)
    ensures forall r :: r in rs <==> RestaurantOwner(owner, r) in db.owners
  {
    set link | link in db.owners && link.owner == owner :: link.restaurant
  }

  /** Submitted by the customer, not yet completed, and at one of the given restaurants. */
  function IsPending(owned: set<Id>): Order -> bool {
    (x: Order) => x.restaurant in owned && x.submitted && !x.completed
  }

  /**
   The owner's pending orders, in key order: exactly the orders of a restaurant the owner is
   linked to that are submitted and not completed.
   */
  function PendingOrders(db: Db, owner: OwnerId): (ids: seq<Id>)
    ensures forall id :: id in ids <==>
      && Valid(db.orders, id)
      && RestaurantOwner(owner, db.orders[id - 1].restaurant) in db.owners
      && db.orders[id - 1].submitted
      && !db.orders[id - 1].completed
    ensures forall i, j :: 0 <= i < j < |ids| ==> ids[i] < ids[j]
  {
    Select(db.orders, IsPending(OwnedRestaurants(db, owner)))
  }

  /** The order a request addresses: the first pending order for id 0, otherwise the raw id. */
  function Target(db: Db, owner: OwnerId, orderId: Id): Id
    requires |PendingOrders(db, owner)| > 0
  {
    if orderId == 0 then PendingOrders(db, owner)[0] else orderId
  }

  /** The earliest pending order: pending, and every order before it is not. */
  lemma DefaultTargetIsFirstPending(db: Db, owner: OwnerId)
    requires |PendingOrders(db, owner)| > 0
    ensures var t := Target(db, owner, 0);
      && t in PendingOrders(db, owner)
      && db.orders[t - 1].submitted && !db.orders[t - 1].completed
      && forall i :: 0 <= i < t - 1 ==> !IsPending(OwnedRestaurants(db, owner))(db.orders[i])
  {
    SelectFirst(db.orders, IsPending(OwnedRestaurants(db, owner)));
  }

  /** What the owner's order page shows. */
  datatype OrderView = OrderView(pending: seq<Id>, active: Option<Id>, lines: seq<CartLine>)

  /**
   view_order on GET: with no pending order nothing is active; otherwise id 0 shows the first
   pending order and any other id shows that order, pending or not, owned or not.
   */
  function ViewOrders(db: Db, owner: OwnerId, orderId: Id): (r: Result<OrderView, Error>)
    requires WellFormed(db)
    ensures |PendingOrders(db, owner)| == 0 ==> r == Success(OrderView([], None, []))
    ensures |PendingOrders(db, owner)| > 0 ==>
      && (r.Success? <==> Valid(db.orders, Target(db, owner, orderId)))
      && (r.Success? ==> r.value.active == Some(Target(db, owner, orderId)))
      && (r.Success? ==> ShowsRows(db.items, db.orderItems, Target(db, owner, orderId), r.value.lines))
    ensures r.Success? ==> r.value.pending == PendingOrders(db, owner)
  {
    var pending := PendingOrders(db, owner);
    if |pending| == 0 then Success(OrderView(pending, None, []))
    else
      var t := Target(db, owner, orderId);
      if Valid(db.orders, t) then
        LinesShowRows(db.items, db.orderItems, t);
        Success(OrderView(pending, Some(t), LinesOf(db.items, db.orderItems, t)))
      else Failure(OrderNotFound)
  }

  /**
   view_order on POST: set the target's completed flag and nothing else. With no pending order
   the source writes to a list and fails, so a pending order is required; the target is
   looked up by its raw id, so neither submission nor ownership is checked.
   */
  function CompleteOrder(db: Db, owner: OwnerId, orderId: Id): (r: Result<Db, Error>)
    requires WellFormed(db) && |PendingOrders(db, owner)| > 0
    ensures var t := Target(db, owner, orderId);
      && (r.Success? <==> Valid(db.orders, t))
      && (r.Success? ==>
        && WellFormed(r.value)
        && r.value == db.(orders := r.value.orders)
        && |r.value.orders| == |db.orders|
        && r.value.orders[t - 1] == db.orders[t - 1].(completed := true)
        && forall k :: 0 <= k < |db.orders| && k != t - 1 ==> r.value.orders[k] == db.orders[k])
  {
    var t := Target(db, owner, orderId);
    match OrderRow(db, t)
    case None => Failure(OrderNotFound)
    case Some(order) => Success(db.(orders := db.orders[t - 1 := order.(completed := true)]))
  }

  /**
   Completing the default target completes a submitted order of the owner's, and the pending
   list afterwards holds exactly the other orders it held before.
   */
  lemma CompleteDefault(db: Db, owner: OwnerId)
    requires WellFormed(db) && |PendingOrders(db, owner)| > 0
    ensures var r := CompleteOrder(db, owner, 0);
      var t := PendingOrders(db, owner)[0];
      && r.Success?
      && r.value.orders[t - 1].completed && r.value.orders[t - 1].submitted
      && RestaurantOwner(owner, r.value.orders[t - 1].restaurant) in db.owners
      && forall id :: id in PendingOrders(r.value, owner) <==> id in PendingOrders(db, owner) && id != t
  {
    DefaultTargetIsFirstPending(db, owner);
  }

  /** The lifecycle invariant: no order is completed before it was submitted. */
  predicate CompletedImpliesSubmitted(db: Db) {
    forall i :: 0 <= i < |db.orders| ==> db.orders[i].completed ==> db.orders[i].submitted
  }

  /**
   Completion by raw id: any existing order can be completed while some order is pending,
   including one never submitted, so "completed implies submitted" is broken.
   */
  lemma CompleteUnsubmitted(db: Db, owner: OwnerId, orderId: Id)
    requires WellFormed(db) && |PendingOrders(db, owner)| > 0
    requires orderId != 0 && Valid(db.orders, orderId) && !db.orders[orderId - 1].submitted
    ensures var r := CompleteOrder(db, owner, orderId);
      && r.Success?
      && r.value.orders[orderId - 1].completed && !r.value.orders[orderId - 1].submitted
      && !CompletedImpliesSubmitted(r.value)
  {
    var r := CompleteOrder(db, owner, orderId).value;
    assert r.orders[orderId - 1].completed && !r.orders[orderId - 1].submitted;
  }

  /**
   Completion with the check the source lacks: only one of the owner's pending orders can be
   completed; any other target is an invalid transition.
   */
  function CompleteOrderChecked(db: Db, owner: OwnerId, orderId: Id): (r: Result<Db, Error>)
    requires WellFormed(db) && |PendingOrders(db, owner)| > 0
    ensures r.Success? <==> Target(db, owner, orderId) in PendingOrders(db, owner)
    ensures r.Success? ==> r == CompleteOrder(db, owner, orderId)
    ensures CompletedImpliesSubmitted(db) && r.Success? ==> CompletedImpliesSubmitted(r.value)
  {
    var t := Target(db, owner, orderId);
    if t in PendingOrders(db, owner) then CompleteOrder(db, owner, orderId) else Failure(InvalidTransition)
  }

  /** Completion by raw id also reaches orders of restaurants the owner is not linked to. */
  lemma CompleteForeignOrder(db: Db, owner: OwnerId, orderId: Id)
    requires WellFormed(db) && |PendingOrders(db, owner)| > 0
    requires orderId != 0 && Valid(db.orders, orderId)
    requires RestaurantOwner(owner, db.orders[orderId - 1].restaurant) !in db.owners
    ensures var r := CompleteOrder(db, owner, orderId);
      r.Success? && r.value.orders[orderId - 1].completed
  {
  }
}

=== FILE: models.dfy ===
/**
 The records of the ordering application (tabletapapp/models.py) and the database that holds them.

 Every table whose rows are queried in order is a sequence whose row with primary key `id`
 sits at position `id - 1`: keys are assigned by auto-increment from 1 and the ordering core
 itself deletes no row. Tables with gaps left by deletions elsewhere (cascades, the owner's
 delete views) are not representable in this layout. A filtered query is assumed to return its
 rows in ascending key order, so "the first row of a filtered query" is the matching row of
 least key; the models declare no ordering, so this is an assumption about the database.
 Prices and totals are decimals with two places; they are modelled as exact integer cents.
 */
module Models {
  import opened Wrappers

  /** A monetary amount in cents (DecimalField with decimal_places=2). */
  type Cents = int

  /** A primary key. Valid keys start at 1; 0 is the "pick the first one" sentinel of the views. */
  type Id = nat

  type OwnerId = nat

  datatype Restaurant = Restaurant(name: string, tableAmount: int)

  /** An ownership link; the set of links held by the database makes each pair unique. */
  datatype RestaurantOwner = RestaurantOwner(owner: OwnerId, restaurant: Id)

  datatype Menu = Menu(name: string, restaurant: Id)

  datatype Category = Category(name: string, menu: Id)

  datatype MenuItem = MenuItem(name: string, description: string, price: Cents, category: Id)

  datatype Table = Table(restaurant: Id)

  /** An order always names a restaurant; its table may be absent (a nullable foreign key). */
  datatype Order = Order(table: Option<Id>, restaurant: Id, completed: bool, submitted: bool, total: Cents)

  /** One line of an order. The quantity is a plain integer: zero and negatives are stored as given. */
  datatype OrderItem = OrderItem(order: Id, item: Id, quantity: int)

  datatype Db = Db(
    restaurants: seq<Restaurant>,
    owners: set<RestaurantOwner>,
    menus: seq<Menu>,
    categories: seq<Category>,
    items: seq<MenuItem>,
    tables: seq<Table>,
    orders: seq<Order>,
    orderItems: seq<OrderItem>)

  /** Whether `id` is the key of a row of `rows`. */
  predicate Valid<T>(rows: seq<T>, id: Id) {
    1 <= id <= |rows|
  }

  /** The order row with the given key, or None when `objects.get(id=...)` would raise. */
  function OrderRow(db: Db, id: Id): (r: Option<Order>)
    ensures r.Some? <==> Valid(db.orders, id)
    ensures r.Some? ==> r.value == db.orders[id - 1]
  {
    if Valid(db.orders, id) then Some(db.orders[id - 1]) else None
  }

  /**
   The keys of the rows satisfying `p`, in key order: the model of `objects.filter(...)`.
   */
  function Select<T>(rows: seq<T>, p: T -> bool): (ids: seq<Id>)
    ensures forall id :: id in ids <==> Valid(rows, id) && p(rows[id - 1])
    ensures forall i, j :: 0 <= i < j < |ids| ==> ids[i] < ids[j]
    ensures |ids| <= |rows|
  {
    if |rows| == 0 then []
    else
      var prefix := Select(rows[..|rows| - 1], p);
      assert forall k :: 0 <= k < |prefix| ==> prefix[k] in prefix;
      prefix + (if p(rows[|rows| - 1]) then [|rows|] else [])
  }

  /** Appending rows extends the filtered key list by the keys of the new matching rows. */
  lemma {:induction false} SelectAppend<T>(rows: seq<T>, x: T, p: T -> bool)
    ensures Select(rows + [x], p) == Select(rows, p) + (if p(x) then [|rows| + 1] else [])
  {
    assert (rows + [x])[..|rows|] == rows;
  }

  /** A filter no row satisfies selects nothing. */
  lemma {:induction false} SelectNone<T>(rows: seq<T>, p: T -> bool)
    requires forall i :: 0 <= i < |rows| ==> !p(rows[i])
    ensures Select(rows, p) == []
  {
    if |rows| > 0 {
      var prefix := rows[..|rows| - 1];
      assert forall i :: 0 <= i < |prefix| ==> prefix[i] == rows[i];
      SelectNone(prefix, p);
    }
  }

  /** A filter selects nothing exactly when no row satisfies it. */
  lemma SelectEmpty<T>(rows: seq<T>, p: T -> bool)
    ensures |Select(rows, p)| == 0 <==> forall i :: 0 <= i < |rows| ==> !p(rows[i])
  {
    if forall i :: 0 <= i < |rows| ==> !p(rows[i]) {
      SelectNone(rows, p);
    } else {
      var i :| 0 <= i < |rows| && p(rows[i]);
      assert i + 1 in Select(rows, p);
    }
  }

  /** The first selected key is the least key of a row satisfying the filter. */
  lemma SelectFirst<T>(rows: seq<T>, p: T -> bool)
    requires |Select(rows, p)| > 0
    ensures var first := Select(rows, p)[0];
      Valid(rows, first) && p(rows[first - 1]) && forall i :: 0 <= i < first - 1 ==> !p(rows[i])
  {
    var ids := Select(rows, p);
    assert ids[0] in ids;
    forall i | 0 <= i < ids[0] - 1 ensures !p(rows[i]) {
      assert i + 1 !in ids;
    }
  }

  /** `id` is the least key of a row satisfying the filter. */
  predicate IsFirst<T>(rows: seq<T>, p: T -> bool, id: Id) {
    Valid(rows, id) && p(rows[id - 1]) && forall i :: 0 <= i < id - 1 ==> !p(rows[i])
  }

  /** A least key, when there is one, is the first key the filter selects. */
  lemma FirstIsSelectFirst<T>(rows: seq<T>, p: T -> bool)
    ensures forall id :: IsFirst(rows, p, id) ==> |Select(rows, p)| > 0 && Select(rows, p)[0] == id
  {
    forall id | IsFirst(rows, p, id) ensures |Select(rows, p)| > 0 && Select(rows, p)[0] == id {
      var ids := Select(rows, p);
      assert id in ids;
      SelectFirst(rows, p);
    }
  }

  /** No two lines of one order name the same item: unique_together (Order_ID, Item_ID). */
  predicate UniqueLines(rows: seq<OrderItem>) {
    forall i, j :: 0 <= i < j < |rows| && rows[i].order == rows[j].order ==> rows[i].item != rows[j].item
  }

  /** Every line refers to an existing order and an existing item. */
  predicate LinesReferToRows(db: Db) {
    forall i :: 0 <= i < |db.orderItems| ==>
      Valid(db.orders, db.orderItems[i].order) && Valid(db.items, db.orderItems[i].item)
  }

  /** Every order refers to an existing restaurant and, if it has one, an existing table. */
  predicate OrdersReferToRows(db: Db) {
    forall i :: 0 <= i < |db.orders| ==>
      Valid(db.restaurants, db.orders[i].restaurant) &&
      (db.orders[i].table.Some? ==> Valid(db.tables, db.orders[i].table.value))
  }

  /** Every catalog row refers to an existing parent row. */
  predicate CatalogRefersToRows(db: Db) {
    && (forall i :: 0 <= i < |db.menus| ==> Valid(db.restaurants, db.menus[i].restaurant))
    && (forall i :: 0 <= i < |db.categories| ==> Valid(db.menus, db.categories[i].menu))
    && (forall i :: 0 <= i < |db.items| ==> Valid(db.categories, db.items[i].category))
    && (forall i :: 0 <= i < |db.tables| ==> Valid(db.restaurants, db.tables[i].restaurant))
  }

  /** The integrity the database schema enforces: foreign keys and unique line pairs. */
  predicate WellFormed(db: Db) {
    && CatalogRefersToRows(db)
    && OrdersReferToRows(db)
    && LinesReferToRows(db)
    && UniqueLines(db.orderItems)
  }
}

=== FILE: orders.dfy ===
/**
 The customer side of the order lifecycle (tabletapapp/views.py): binding a session to an
 order, adding and merging line items with the running total, viewing and submitting the cart.
 */
module Orders {
  import opened Wrappers
  import opened Models
  import opened Cart

  /** An opaque per-browser session key. */
  type SessionId = nat

  /** The value each session stores under 'order_id'. */
  type Sessions = map<SessionId, Id>

  /** The lookups that raise DoesNotExist and abort the request before anything is written. */
  datatype Error = ItemNotFound | MenuNotFound | TableNotFound | OrderNotFound | OrderAlreadySubmitted

  /** The database together with every client's session store. */
  datatype State = State(db: Db, sessions: Sessions)

  /** GET renders the form; POST carries the form's quantity, or None when the form does not validate. */
  datatype Request = Get | Post(quantity: Option<int>)

  /** The order the session is bound to; a missing key or a stored 0 is falsy and binds nothing. */
  function BoundOrder(sessions: Sessions, sid: SessionId): Option<Id> {
    if sid in sessions && sessions[sid] != 0 then Some(sessions[sid]) else None
  }

  /** A newly created order: the model defaults are not completed, not submitted and a zero total. */
  function NewOrder(table: Id, restaurant: Id): Order {
    Order(Some(table), restaurant, false, false, 0)
  }

  /** The state after binding, and the order the request works on. */
  datatype Binding = Binding(state: State, order: Id)

  /**
   The start of add_order_item: look up the item and the menu, then reuse the session's order
   or create one for the table and bind it to the session.
   */
  function ResolveOrder(st: State, sid: SessionId, tableId: Id, menuId: Id, itemId: Id): (r: Result<Binding, Error>)
    requires WellFormed(st.db)
    ensures !Valid(st.db.items, itemId) ==> r == Failure(ItemNotFound)
    ensures Valid(st.db.items, itemId) && !Valid(st.db.menus, menuId) ==> r == Failure(MenuNotFound)
    ensures r.Success? ==> Valid(st.db.items, itemId) && Valid(st.db.menus, menuId)
    ensures r.Success? ==> WellFormed(r.value.state.db) && Valid(r.value.state.db.orders, r.value.order)
    ensures r.Success? ==> BoundOrder(r.value.state.sessions, sid) == Some(r.value.order)
    // A bound session: the existing order is used and nothing is created or rebound.
    ensures BoundOrder(st.sessions, sid).Some? && Valid(st.db.items, itemId) && Valid(st.db.menus, menuId) ==>
      if Valid(st.db.orders, BoundOrder(st.sessions, sid).value)
      then r == Success(Binding(st, BoundOrder(st.sessions, sid).value))
      else r == Failure(OrderNotFound)
    // An unbound session: exactly one order is appended, for this table and the menu's restaurant.
    ensures BoundOrder(st.sessions, sid).None? && Valid(st.db.items, itemId) && Valid(st.db.menus, menuId) ==>
      if Valid(st.db.tables, tableId)
      then
        && r.Success?
        && r.value.order == |st.db.orders| + 1
        && r.value.state.db == st.db.(orders := st.db.orders + [NewOrder(tableId, st.db.menus[menuId - 1].restaurant)])
        && r.value.state.sessions == st.sessions[sid := r.value.order]
      else r == Failure(TableNotFound)
  {
    if !Valid(st.db.items, itemId) then Failure(ItemNotFound)
    else if !Valid(st.db.menus, menuId) then Failure(MenuNotFound)
    else match BoundOrder(st.sessions, sid)
      case Some(o) =>
        if Valid(st.db.orders, o) then Success(Binding(st, o)) else Failure(OrderNotFound)
      case None =>
        if !Valid(st.db.tables, tableId) then Failure(TableNotFound)
        else
          var order := NewOrder(tableId, st.db.menus[menuId - 1].restaurant);
          var db := st.db.(orders := st.db.orders + [order]);
          var id := |db.orders|;
          assert forall i :: 0 <= i < |st.db.orders| ==> db.orders[i] == st.db.orders[i];
          Success(Binding(State(db, st.sessions[sid := id]), id))
  }

  /** The position of the line for (o, item), if the order has one: `Order_Item.objects.get(...)`. */
  function FindLine(rows: seq<OrderItem>, o: Id, item: Id): (r: Option<nat>)
    ensures r.Some? ==> r.value < |rows| && rows[r.value].order == o && rows[r.value].item == item
    ensures r.None? ==> forall j :: 0 <= j < |rows| ==> rows[j].order != o || rows[j].item != item
  {
    if |rows| == 0 then None
    else if rows[|rows| - 1].order == o && rows[|rows| - 1].item == item then Some(|rows| - 1)
    else
      var prefix := rows[..|rows| - 1];
      assert forall j :: 0 <= j < |prefix| ==> prefix[j] == rows[j];
      FindLine(prefix, o, item)
  }

  /** The search finds a line exactly when the order's quantity map has the item. */
  lemma {:induction false} FindLineAgreesWithMap(rows: seq<OrderItem>, o: Id, item: Id)
    ensures FindLine(rows, o, item).None? <==> item !in Quantities(rows, o)
  {
    if item in Quantities(rows, o) {
      QuantitiesKeys(rows, o, item);
    }
    if FindLine(rows, o, item).Some? {
      QuantitiesHasLine(rows, FindLine(rows, o, item).value, o);
    }
  }

  /**
   The POST branch of add_order_item: a repeated item raises the existing line's quantity, a new
   item gets a new line, and the order total grows. As in the source, the merge branch adds the
   line's NEW quantity times the price rather than the added quantity times the price.
   */
  function MergeLine(db: Db, o: Id, itemId: Id, q: int): (r: Db)
    requires WellFormed(db) && Valid(db.orders, o) && Valid(db.items, itemId)
    ensures WellFormed(r)
    ensures r == db.(orders := r.orders, orderItems := r.orderItems)
    ensures |r.orders| == |db.orders|
    ensures forall k :: 0 <= k < |db.orders| && k != o - 1 ==> r.orders[k] == db.orders[k]
    ensures r.orders[o - 1] == db.orders[o - 1].(total := r.orders[o - 1].total)
  {
    var price := db.items[itemId - 1].price;
    var order := db.orders[o - 1];
    match FindLine(db.orderItems, o, itemId)
    case Some(i) =>
      var merged := db.orderItems[i].quantity + q;
      var rows := SetQuantity(db.orderItems, i, merged);
      assert UniqueLines(rows);
      db.(orderItems := rows, orders := db.orders[o - 1 := order.(total := order.total + price * merged)])
    case None =>
      var rows := db.orderItems + [OrderItem(o, itemId, q)];
      assert UniqueLines(rows);
      db.(orderItems := rows, orders := db.orders[o - 1 := order.(total := order.total + price * q)])
  }

  /** The new-line branch of MergeLine, unfolded. */
  lemma MergeLineNew(db: Db, o: Id, itemId: Id, q: int)
    requires WellFormed(db) && Valid(db.orders, o) && Valid(db.items, itemId)
    requires FindLine(db.orderItems, o, itemId).None?
    ensures MergeLine(db, o, itemId, q).orderItems == db.orderItems + [OrderItem(o, itemId, q)]
    ensures MergeLine(db, o, itemId, q).orders[o - 1].total == db.orders[o - 1].total + db.items[itemId - 1].price * q
  {
  }

  /** The merge branch of MergeLine, unfolded. */
  lemma MergeLineExisting(db: Db, o: Id, itemId: Id, q: int, i: nat)
    requires WellFormed(db) && Valid(db.orders, o) && Valid(db.items, itemId)
    requires FindLine(db.orderItems, o, itemId) == Some(i)
    ensures MergeLine(db, o, itemId, q).orderItems == SetQuantity(db.orderItems, i, db.orderItems[i].quantity + q)
    ensures MergeLine(db, o, itemId, q).orders[o - 1].total
      == db.orders[o - 1].total + db.items[itemId - 1].price * (db.orderItems[i].quantity + q)
  {
  }

  /** The order's stored total agrees with the sum of its displayed line prices. */
  predicate Consistent(db: Db, o: Id)
    requires WellFormed(db) && Valid(db.orders, o)
  {
    db.orders[o - 1].total == Sum(LinesOf(db.items, db.orderItems, o))
  }

  /**
   Adding an item the order does not have: exactly one new line with the submitted quantity, the
   other items' quantities and the other orders' lines unchanged, and the total raised by
   quantity times price, so an order whose total agreed with its lines still agrees.
   */
  lemma AddNewItem(db: Db, o: Id, itemId: Id, q: int)
    requires WellFormed(db) && Valid(db.orders, o) && Valid(db.items, itemId)
    requires itemId !in Quantities(db.orderItems, o)
    ensures Quantities(MergeLine(db, o, itemId, q).orderItems, o) == Quantities(db.orderItems, o)[itemId := q]
    ensures |Select(MergeLine(db, o, itemId, q).orderItems, OfOrder(o))| == |Select(db.orderItems, OfOrder(o))| + 1
    ensures forall o' :: o' != o ==> Quantities(MergeLine(db, o, itemId, q).orderItems, o') == Quantities(db.orderItems, o')
    ensures Sum(LinesOf(db.items, MergeLine(db, o, itemId, q).orderItems, o))
      == Sum(LinesOf(db.items, db.orderItems, o)) + db.items[itemId - 1].price * q
    ensures MergeLine(db, o, itemId, q).orders[o - 1].total == db.orders[o - 1].total + db.items[itemId - 1].price * q
    ensures Consistent(db, o) ==> Consistent(MergeLine(db, o, itemId, q), o)
  {
    FindLineAgreesWithMap(db.orderItems, o, itemId);
    var x := OrderItem(o, itemId, q);
    var r := MergeLine(db, o, itemId, q);
    assert r.orderItems == db.orderItems + [x] && r.orders[o - 1].total == db.orders[o - 1].total + db.items[itemId - 1].price * q by {
      MergeLineNew(db, o, itemId, q);
    }
    QuantitiesAppend(db.orderItems, x);
    SelectAppend(db.orderItems, x, OfOrder(o));
    SumAfterAppend(db.items, db.orderItems, x);
  }

  /** The line of an item the order already has, and its quantity in the order's map. */
  lemma ExistingLine(db: Db, o: Id, itemId: Id) returns (i: nat)
    requires WellFormed(db) && Valid(db.orders, o) && Valid(db.items, itemId)
    requires itemId in Quantities(db.orderItems, o)
    ensures FindLine(db.orderItems, o, itemId) == Some(i)
    ensures i < |db.orderItems| && db.orderItems[i].order == o && db.orderItems[i].item == itemId
    ensures Quantities(db.orderItems, o)[itemId] == db.orderItems[i].quantity
  {
    FindLineAgreesWithMap(db.orderItems, o, itemId);
    i := FindLine(db.orderItems, o, itemId).value;
    QuantityOfLine(db.orderItems, i, o);
  }

  /**
   Adding an item the order already has, on the line table: the line count stays, that item's
   quantity grows by exactly the submitted amount, the other orders keep their maps, and the
   displayed sum grows by quantity times price.
   */
  lemma AddExistingItemLines(db: Db, o: Id, itemId: Id, q: int)
    requires WellFormed(db) && Valid(db.orders, o) && Valid(db.items, itemId)
    requires itemId in Quantities(db.orderItems, o)
    ensures Quantities(MergeLine(db, o, itemId, q).orderItems, o)
      == Quantities(db.orderItems, o)[itemId := Quantities(db.orderItems, o)[itemId] + q]
    ensures |Select(MergeLine(db, o, itemId, q).orderItems, OfOrder(o))| == |Select(db.orderItems, OfOrder(o))|
    ensures forall o' :: o' != o ==> Quantities(MergeLine(db, o, itemId, q).orderItems, o') == Quantities(db.orderItems, o')
    ensures Sum(LinesOf(db.items, MergeLine(db, o, itemId, q).orderItems, o))
      == Sum(LinesOf(db.items, db.orderItems, o)) + db.items[itemId - 1].price * q
  {
    var i := ExistingLine(db, o, itemId);
    var rows' := SetQuantity(db.orderItems, i, db.orderItems[i].quantity + q);
    var m := Quantities(db.orderItems, o);
    assert && Quantities(rows', o) == m[itemId := m[itemId] + q]
           && |Select(rows', OfOrder(o))| == |Select(db.orderItems, OfOrder(o))|
           && (forall o' :: o' != o ==> Quantities(rows', o') == Quantities(db.orderItems, o'))
           && Sum(LinesOf(db.items, rows', o)) == Sum(LinesOf(db.items, db.orderItems, o)) + db.items[itemId - 1].price * q
    by {
      ExistingItemLines(db.items, db.orderItems, i, q);
    }
    MergeLineExisting(db, o, itemId, q, i);
  }

  /** Adding an item the order already has charges the merged quantity times the price. */
  lemma AddExistingItemTotal(db: Db, o: Id, itemId: Id, q: int)
    requires WellFormed(db) && Valid(db.orders, o) && Valid(db.items, itemId)
    requires itemId in Quantities(db.orderItems, o)
    ensures MergeLine(db, o, itemId, q).orders[o - 1].total
      == db.orders[o - 1].total + db.items[itemId - 1].price * (Quantities(db.orderItems, o)[itemId] + q)
  {
    var i := ExistingLine(db, o, itemId);
    MergeLineExisting(db, o, itemId, q, i);
  }

  /**
   Adding an item the order already has: the line count stays, that item's quantity grows by
   exactly the submitted amount and nothing else changes; the displayed sum grows by quantity
   times price but the stored total grows by the merged quantity times price.
   */
  lemma AddExistingItem(db: Db, o: Id, itemId: Id, q: int)
    requires WellFormed(db) && Valid(db.orders, o) && Valid(db.items, itemId)
    requires itemId in Quantities(db.orderItems, o)
    ensures Quantities(MergeLine(db, o, itemId, q).orderItems, o)
      == Quantities(db.orderItems, o)[itemId := Quantities(db.orderItems, o)[itemId] + q]
    ensures |Select(MergeLine(db, o, itemId, q).orderItems, OfOrder(o))| == |Select(db.orderItems, OfOrder(o))|
    ensures forall o' :: o' != o ==> Quantities(MergeLine(db, o, itemId, q).orderItems, o') == Quantities(db.orderItems, o')
    ensures Sum(LinesOf(db.items, MergeLine(db, o, itemId, q).orderItems, o))
      == Sum(LinesOf(db.items, db.orderItems, o)) + db.items[itemId - 1].price * q
    ensures MergeLine(db, o, itemId, q).orders[o - 1].total
      == db.orders[o - 1].total + db.items[itemId - 1].price * (Quantities(db.orderItems, o)[itemId] + q)
  {
    AddExistingItemLines(db, o, itemId, q);
    AddExistingItemTotal(db, o, itemId, q);
  }

  /** The merge branch on the line table alone: one entry of the map and the displayed sum move. */
  lemma ExistingItemLines(items: seq<MenuItem>, rows: seq<OrderItem>, i: nat, q: int)
    requires UniqueLines(rows) && ItemsExist(items, rows) && i < |rows|
    ensures var rows' := SetQuantity(rows, i, rows[i].quantity + q);
      var o := rows[i].order;
      && ItemsExist(items, rows')
      && Quantities(rows', o) == Quantities(rows, o)[rows[i].item := rows[i].quantity + q]
      && |Select(rows', OfOrder(o))| == |Select(rows, OfOrder(o))|
      && (forall o' :: o' != o ==> Quantities(rows', o') == Quantities(rows, o'))
      && Sum(LinesOf(items, rows', o)) == Sum(LinesOf(items, rows, o)) + items[rows[i].item - 1].price * q
    ensures forall o' :: |Select(SetQuantity(rows, i, rows[i].quantity + q), OfOrder(o'))| == |Select(rows, OfOrder(o'))|
  {
    var merged := rows[i].quantity + q;
    var rows' := SetQuantity(rows, i, merged);
    var o := rows[i].order;
    forall o' ensures Quantities(rows', o') ==
      (if o' == o then Quantities(rows, o)[rows[i].item := merged] else Quantities(rows, o'))
    {
      SetQuantityMap(rows, i, merged, o');
    }
    SetQuantityLines(items, rows, i, merged, o);
    MulAdd(items[rows[i].item - 1].price, rows[i].quantity, q);
    forall o' ensures |Select(rows', OfOrder(o'))| == |Select(rows, OfOrder(o'))| {
      SetQuantityCount(rows, i, merged, o');
    }
  }

  /**
   For an order whose total matched its lines, after a merge the stored total exceeds the
   displayed sum by the line's previous quantity times the price, so it no longer matches
   unless that product is 0.
   */
  lemma MergeBreaksTotal(db: Db, o: Id, itemId: Id, q: int)
    requires WellFormed(db) && Valid(db.orders, o) && Valid(db.items, itemId)
    requires itemId in Quantities(db.orderItems, o) && Consistent(db, o)
    ensures var r := MergeLine(db, o, itemId, q);
      r.orders[o - 1].total - Sum(LinesOf(r.items, r.orderItems, o))
      == db.items[itemId - 1].price * Quantities(db.orderItems, o)[itemId]
    ensures Consistent(MergeLine(db, o, itemId, q), o) <==>
      db.items[itemId - 1].price * Quantities(db.orderItems, o)[itemId] == 0
  {
    AddExistingItem(db, o, itemId, q);
  }

  /**
   The merge as the doc comment intends it: both branches add the submitted quantity times the
   price, so the stored total keeps agreeing with the lines.
   */
  function MergeLineCorrected(db: Db, o: Id, itemId: Id, q: int): (r: Db)
    requires WellFormed(db) && Valid(db.orders, o) && Valid(db.items, itemId)
    ensures WellFormed(r)
    ensures r.orderItems == MergeLine(db, o, itemId, q).orderItems
    ensures r.orders == db.orders[o - 1 := db.orders[o - 1].(total := db.orders[o - 1].total + db.items[itemId - 1].price * q)]
  {
    var order := db.orders[o - 1];
    MergeLine(db, o, itemId, q).(orders := db.orders[o - 1 := order.(total := order.total + db.items[itemId - 1].price * q)])
  }

  /** With the corrected merge, every add keeps the stored total equal to the displayed sum. */
  lemma CorrectedMergeKeepsTotal(db: Db, o: Id, itemId: Id, q: int)
    requires WellFormed(db) && Valid(db.orders, o) && Valid(db.items, itemId)
    requires Consistent(db, o)
    ensures Consistent(MergeLineCorrected(db, o, itemId, q), o)
  {
    var r := MergeLineCorrected(db, o, itemId, q);
    var before := Sum(LinesOf(db.items, db.orderItems, o));
    if itemId in Quantities(db.orderItems, o) {
      AddExistingItem(db, o, itemId, q);
    } else {
      AddNewItem(db, o, itemId, q);
    }
    assert Sum(LinesOf(db.items, r.orderItems, o)) == before + db.items[itemId - 1].price * q;
    assert r.orders[o - 1].total == db.orders[o - 1].total + db.items[itemId - 1].price * q;
  }

  /**
   The POST merge on one order, whichever branch it takes: the item's entry becomes the old
   quantity plus the submitted one (or the submitted one for a new item), the other orders'
   maps stay, and the total grows by that resulting quantity times the price.
   */
  lemma MergeLineEffect(db: Db, o: Id, itemId: Id, q: int)
    requires WellFormed(db) && Valid(db.orders, o) && Valid(db.items, itemId)
    ensures var m := Quantities(db.orderItems, o);
      Quantities(MergeLine(db, o, itemId, q).orderItems, o)
      == m[itemId := if itemId in m then m[itemId] + q else q]
    ensures forall o' :: o' != o ==>
      Quantities(MergeLine(db, o, itemId, q).orderItems, o') == Quantities(db.orderItems, o')
    ensures var m := Quantities(db.orderItems, o);
      MergeLine(db, o, itemId, q).orders[o - 1].total
      == db.orders[o - 1].total + db.items[itemId - 1].price * (if itemId in m then m[itemId] + q else q)
  {
    if itemId in Quantities(db.orderItems, o) {
      AddExistingItem(db, o, itemId, q);
    } else {
      AddNewItem(db, o, itemId, q);
    }
  }

  /**
   Binding and then merging: binding writes no line and changes no existing order (it reuses an
   order as it is or appends one with total 0), so the merge's effect on the bound order is all
   that separates the result from the state before the request.
   */
  lemma BindThenMerge(st: State, sid: SessionId, tableId: Id, menuId: Id, itemId: Id, q: int)
    requires WellFormed(st.db) && ResolveOrder(st, sid, tableId, menuId, itemId).Success?
    ensures var b := ResolveOrder(st, sid, tableId, menuId, itemId).value;
      var o := b.order;
      var r := MergeLine(b.state.db, o, itemId, q);
      var m := Quantities(st.db.orderItems, o);
      var merged := if itemId in m then m[itemId] + q else q;
      && Valid(r.orders, o)
      && |r.orders| >= |st.db.orders|
      && Quantities(r.orderItems, o) == m[itemId := merged]
      && (forall o' :: o' != o ==> Quantities(r.orderItems, o') == Quantities(st.db.orderItems, o'))
      && (forall k :: 0 <= k < |st.db.orders| && k != o - 1 ==> r.orders[k] == st.db.orders[k])
      && r.orders[o - 1].total
         == (if Valid(st.db.orders, o) then st.db.orders[o - 1].total else 0) + st.db.items[itemId - 1].price * merged
  {
    var b := ResolveOrder(st, sid, tableId, menuId, itemId).value;
    assert b.state.db.orderItems == st.db.orderItems && b.state.db.items == st.db.items;
    assert forall k :: 0 <= k < |st.db.orders| ==> b.state.db.orders[k] == st.db.orders[k];
    assert b.state.db.orders[b.order - 1].total
      == (if Valid(st.db.orders, b.order) then st.db.orders[b.order - 1].total else 0);
    MergeLineEffect(b.state.db, b.order, itemId, q);
  }

  /**
   add_order_item: bind the session to an order (on GET as well as POST), then on a POST whose
   form validates merge the submitted quantity into the order. Any quantity is accepted.
   */
  function AddOrderItem(st: State, sid: SessionId, tableId: Id, menuId: Id, itemId: Id, req: Request): (r: Result<State, Error>)
    requires WellFormed(st.db)
    ensures r.Success? <==> ResolveOrder(st, sid, tableId, menuId, itemId).Success?
    ensures r.Success? ==> WellFormed(r.value.db)
    ensures r.Success? ==> r.value.db == st.db.(orders := r.value.db.orders, orderItems := r.value.db.orderItems)
    ensures r.Success? ==> BoundOrder(r.value.sessions, sid).Some?
    ensures r.Success? ==> forall s :: s != sid ==> BoundOrder(r.value.sessions, s) == BoundOrder(st.sessions, s)
    ensures r.Success? && !(req.Post? && req.quantity.Some?) ==>
      r.value == ResolveOrder(st, sid, tableId, menuId, itemId).value.state
  {
    match ResolveOrder(st, sid, tableId, menuId, itemId)
    case Failure(e) => Failure(e)
    case Success(b) =>
      if req.Post? && req.quantity.Some?
      then Success(b.state.(db := MergeLine(b.state.db, b.order, itemId, req.quantity.value)))
      else Success(b.state)
  }

  /**
   A valid POST adds the item to the session's order and touches no other order: the item's
   quantity becomes the old one plus the submitted one (or the submitted one for a new item),
   every other order keeps its row and its lines, and the order's total grows by the resulting
   quantity times the price.
   */
  lemma AddOrderItemPost(st: State, sid: SessionId, tableId: Id, menuId: Id, itemId: Id, q: int)
    requires WellFormed(st.db) && ResolveOrder(st, sid, tableId, menuId, itemId).Success?
    ensures var r := AddOrderItem(st, sid, tableId, menuId, itemId, Post(Some(q)));
      && r.Success?
      && var o := BoundOrder(r.value.sessions, sid).value;
      var m := Quantities(st.db.orderItems, o);
      var merged := if itemId in m then m[itemId] + q else q;
      && Valid(r.value.db.orders, o)
      && |r.value.db.orders| >= |st.db.orders|
      && Quantities(r.value.db.orderItems, o) == m[itemId := merged]
      && (forall o' :: o' != o ==> Quantities(r.value.db.orderItems, o') == Quantities(st.db.orderItems, o'))
      && (forall k :: 0 <= k < |st.db.orders| && k != o - 1 ==> r.value.db.orders[k] == st.db.orders[k])
      && r.value.db.orders[o - 1].total
         == (if Valid(st.db.orders, o) then st.db.orders[o - 1].total else 0) + st.db.items[itemId - 1].price * merged
  {
    var b := ResolveOrder(st, sid, tableId, menuId, itemId).value;
    assert AddOrderItem(st, sid, tableId, menuId, itemId, Post(Some(q)))
      == Success(b.state.(db := MergeLine(b.state.db, b.order, itemId, q)));
    BindThenMerge(st, sid, tableId, menuId, itemId, q);
  }

  /**
   A freshly bound session's first valid add leaves an open, unsubmitted order holding exactly
   that one line, whose total is quantity times price and agrees with its lines.
   */
  lemma FirstAddToNewOrder(st: State, sid: SessionId, tableId: Id, menuId: Id, itemId: Id, q: int)
    requires WellFormed(st.db) && BoundOrder(st.sessions, sid).None?
    requires Valid(st.db.items, itemId) && Valid(st.db.menus, menuId) && Valid(st.db.tables, tableId)
    ensures AddOrderItem(st, sid, tableId, menuId, itemId, Post(Some(q))).Success?
    ensures var r := AddOrderItem(st, sid, tableId, menuId, itemId, Post(Some(q))).value;
      var o := |st.db.orders| + 1;
      && BoundOrder(r.sessions, sid) == Some(o)
      && Valid(r.db.orders, o)
      && !r.db.orders[o - 1].completed && !r.db.orders[o - 1].submitted
      && r.db.orders[o - 1].total == st.db.items[itemId - 1].price * q
      && Quantities(r.db.orderItems, o) == map[itemId := q]
      && Consistent(r.db, o)
  {
    var o := |st.db.orders| + 1;
    var b := ResolveOrder(st, sid, tableId, menuId, itemId).value;
    var db1 := b.state.db;
    assert b.order == o;
    assert db1 == st.db.(orders := st.db.orders + [NewOrder(tableId, st.db.menus[menuId - 1].restaurant)]);
    assert db1.orders[o - 1] == NewOrder(tableId, st.db.menus[menuId - 1].restaurant);
    assert forall i :: 0 <= i < |db1.orderItems| ==> db1.orderItems[i].order != o by {
      assert db1.orderItems == st.db.orderItems;
    }
    NoLinesYet(db1, o);
    assert Consistent(db1, o);
    AddNewItem(db1, o, itemId, q);
    assert AddOrderItem(st, sid, tableId, menuId, itemId, Post(Some(q))) == Success(b.state.(db := MergeLine(db1, o, itemId, q)));
  }

  /** An order no line refers to yet has an empty map and nothing to display. */
  lemma NoLinesYet(db: Db, o: Id)
    requires WellFormed(db) && Valid(db.orders, o)
    requires forall i :: 0 <= i < |db.orderItems| ==> db.orderItems[i].order != o
    ensures Quantities(db.orderItems, o) == map[]
    ensures LinesOf(db.items, db.orderItems, o) == []
  {
    if Quantities(db.orderItems, o) != map[] {
      var it :| it in Quantities(db.orderItems, o);
      QuantitiesKeys(db.orderItems, o, it);
    }
    SelectNone(db.orderItems, OfOrder(o));
    LinesCount(db.items, db.orderItems, o);
  }

  /**
   Nothing guards a submitted order: a valid add through a session still bound to it changes
   that item's quantity and keeps the order submitted.
   */
  lemma AddAfterSubmit(st: State, sid: SessionId, tableId: Id, menuId: Id, itemId: Id, q: int)
    requires WellFormed(st.db) && BoundOrder(st.sessions, sid).Some?
    requires Valid(st.db.orders, BoundOrder(st.sessions, sid).value)
    requires st.db.orders[BoundOrder(st.sessions, sid).value - 1].submitted
    requires Valid(st.db.items, itemId) && Valid(st.db.menus, menuId) && q != 0
    ensures var o := BoundOrder(st.sessions, sid).value;
      var r := AddOrderItem(st, sid, tableId, menuId, itemId, Post(Some(q)));
      && r.Success?
      && r.value.db.orders[o - 1].submitted
      && Quantities(r.value.db.orderItems, o) != Quantities(st.db.orderItems, o)
  {
    var o := BoundOrder(st.sessions, sid).value;
    var before := Quantities(st.db.orderItems, o);
    if itemId in before {
      AddExistingItem(st.db, o, itemId, q);
      var after := Quantities(MergeLine(st.db, o, itemId, q).orderItems, o);
      assert after[itemId] != before[itemId];
    } else {
      AddNewItem(st.db, o, itemId, q);
    }
  }

  /**
   add_order_item with the state guard the source lacks: a request bound to a submitted order
   is refused, and otherwise behaves as the source does.
   */
  function AddOrderItemGuarded(st: State, sid: SessionId, tableId: Id, menuId: Id, itemId: Id, req: Request): (r: Result<State, Error>)
    requires WellFormed(st.db)
    ensures r.Success? ==> WellFormed(r.value.db)
    ensures r.Success? ==> r == AddOrderItem(st, sid, tableId, menuId, itemId, req)
    ensures var b := ResolveOrder(st, sid, tableId, menuId, itemId);
      b.Success? && b.value.state.db.orders[b.value.order - 1].submitted ==> r == Failure(OrderAlreadySubmitted)
    ensures var b := ResolveOrder(st, sid, tableId, menuId, itemId);
      (b.Failure? || !b.value.state.db.orders[b.value.order - 1].submitted) ==>
        r == AddOrderItem(st, sid, tableId, menuId, itemId, req)
  {
    match ResolveOrder(st, sid, tableId, menuId, itemId)
    case Failure(e) => Failure(e)
    case Success(b) =>
      if b.state.db.orders[b.order - 1].submitted then Failure(OrderAlreadySubmitted)
      else AddOrderItem(st, sid, tableId, menuId, itemId, req)
  }

  /** With the guard, an order once submitted keeps its flags, its total and its lines. */
  lemma GuardedAddKeepsSubmitted(st: State, sid: SessionId, tableId: Id, menuId: Id, itemId: Id, req: Request, k: Id)
    requires WellFormed(st.db) && Valid(st.db.orders, k) && st.db.orders[k - 1].submitted
    requires AddOrderItemGuarded(st, sid, tableId, menuId, itemId, req).Success?
    ensures var r := AddOrderItemGuarded(st, sid, tableId, menuId, itemId, req).value;
      && Valid(r.db.orders, k)
      && r.db.orders[k - 1] == st.db.orders[k - 1]
      && Quantities(r.db.orderItems, k) == Quantities(st.db.orderItems, k)
  {
    var b := ResolveOrder(st, sid, tableId, menuId, itemId).value;
    var db1 := b.state.db;
    assert b.order != k;
    assert db1.orderItems == st.db.orderItems;
    assert db1.orders[k - 1] == st.db.orders[k - 1];
    if req.Post? && req.quantity.Some? {
      if itemId in Quantities(db1.orderItems, b.order) {
        AddExistingItem(db1, b.order, itemId, req.quantity.value);
      } else {
        AddNewItem(db1, b.order, itemId, req.quantity.value);
      }
    }
  }

  /** What the cart page shows: the stored total and the displayed lines. */
  datatype CartView = CartView(total: Cents, lines: seq<CartLine>)

  /**
   view_cart on GET. A session with no bound order makes the source fail on an undefined name,
   so a bound order is required; a bound key with no order row fails the lookup.
   */
  function ViewCart(st: State, sid: SessionId): (r: Result<CartView, Error>)
    requires WellFormed(st.db) && BoundOrder(st.sessions, sid).Some?
    ensures var o := BoundOrder(st.sessions, sid).value;
      && (r.Success? <==> Valid(st.db.orders, o))
      && (r.Success? ==> r.value.total == st.db.orders[o - 1].total)
      && (r.Success? ==> ShowsRows(st.db.items, st.db.orderItems, o, r.value.lines))
  {
    var o := BoundOrder(st.sessions, sid).value;
    match OrderRow(st.db, o)
    case None => Failure(OrderNotFound)
    case Some(order) =>
      LinesShowRows(st.db.items, st.db.orderItems, o);
      Success(CartView(order.total, LinesOf(st.db.items, st.db.orderItems, o)))
  }

  /**
   The cart's displayed prices add up to the per-item reference total of the order's quantity
   map, and the stored total the cart shows equals that reference exactly when the order is
   consistent.
   */
  lemma CartTotalByItem(st: State, sid: SessionId)
    requires WellFormed(st.db) && BoundOrder(st.sessions, sid).Some?
    requires Valid(st.db.orders, BoundOrder(st.sessions, sid).value)
    ensures var o := BoundOrder(st.sessions, sid).value;
      var reference := ItemsTotal(st.db.items, Quantities(st.db.orderItems, o), |st.db.items|);
      var r := ViewCart(st, sid);
      && r.Success?
      && Sum(r.value.lines) == reference
      && (r.value.total == reference <==> Consistent(st.db, o))
  {
    LinesSumByItem(st.db.items, st.db.orderItems, BoundOrder(st.sessions, sid).value);
  }

  /**
   view_cart on POST: mark the bound order submitted. The session keeps its binding, and
   nothing else is written.
   */
  function SubmitOrder(st: State, sid: SessionId): (r: Result<State, Error>)
    requires WellFormed(st.db) && BoundOrder(st.sessions, sid).Some?
    ensures var o := BoundOrder(st.sessions, sid).value;
      && (r.Success? <==> Valid(st.db.orders, o))
      && (r.Success? ==>
        && r.value.sessions == st.sessions
        && WellFormed(r.value.db)
        && r.value.db == st.db.(orders := r.value.db.orders)
        && |r.value.db.orders| == |st.db.orders|
        && r.value.db.orders[o - 1].submitted
        && r.value.db.orders[o - 1] == st.db.orders[o - 1].(submitted := true)
        && forall k :: 0 <= k < |st.db.orders| && k != o - 1 ==> r.value.db.orders[k] == st.db.orders[k])
  {
    var o := BoundOrder(st.sessions, sid).value;
    match OrderRow(st.db, o)
    case None => Failure(OrderNotFound)
    case Some(order) => Success(st.(db := st.db.(orders := st.db.orders[o - 1 := order.(submitted := true)])))
  }

  /** Submitting twice leaves the same state as submitting once. */
  lemma SubmitIdempotent(st: State, sid: SessionId)
    requires WellFormed(st.db) && BoundOrder(st.sessions, sid).Some?
    requires Valid(st.db.orders, BoundOrder(st.sessions, sid).value)
    ensures var once := SubmitOrder(st, sid);
      once.Success? && SubmitOrder(once.value, sid) == once
  {
    var once := SubmitOrder(st, sid).value;
    var o := BoundOrder(st.sessions, sid).value;
    assert once.db.orders[o - 1 := once.db.orders[o - 1].(submitted := true)] == once.db.orders;
  }
}

=== FILE: scenario.dfy ===
/**
 A worked run of the customer and owner flows on a small restaurant: item A at 5.00 added twice
 (quantity 2, then 1), item B at 3.50 added once, the cart submitted and the order completed.
 */
module Scenario {
  import opened Wrappers
  import opened Models
  import opened Cart
  import opened Orders
  import opened Console

  const A: Id := 1
  const B: Id := 2
  const Guest: SessionId := 1
  const Owner: OwnerId := 7

  /** One restaurant with one table, one menu, one category and the two items; no orders yet. */
  function Start(): State {
    State(
      Db([Restaurant("Bistro", 1)], {RestaurantOwner(Owner, 1)}, [Menu("Lunch", 1)], [Category("Mains", 1)],
         [MenuItem("A", "", 500, 1), MenuItem("B", "", 350, 1)], [Table(1)], [], []),
      map[])
  }

  lemma StartWellFormed()
    ensures WellFormed(Start().db)
  {
  }

  /** The state the cart has reached after some adds through the guest's order 1. */
  predicate Cart1(st: State, quantities: map<Id, int>, total: Cents, shown: Cents) {
    && WellFormed(st.db)
    && BoundOrder(st.sessions, Guest) == Some(1)
    && Valid(st.db.orders, 1)
    && st.db.items == Start().db.items
    && st.db.menus == Start().db.menus
    && Quantities(st.db.orderItems, 1) == quantities
    && st.db.orders[0].total == total
    && Sum(LinesOf(st.db.items, st.db.orderItems, 1)) == shown
  }

  /** First add: 2 A on a fresh session open order 1 with total 10.00. */
  lemma FirstAdd()
    ensures var r := AddOrderItem(Start(), Guest, 1, 1, A, Post(Some(2)));
      r.Success? && Cart1(r.value, map[A := 2], 1000, 1000)
  {
    StartWellFormed();
    FirstAddToNewOrder(Start(), Guest, 1, 1, A, 2);
  }

  /** Second add: 1 more A merges into the line, and the total is charged for all 3 A. */
  lemma SecondAdd(st: State)
    requires Cart1(st, map[A := 2], 1000, 1000)
    ensures var r := AddOrderItem(st, Guest, 1, 1, A, Post(Some(1)));
      r.Success? && Cart1(r.value, map[A := 3], 2500, 1500)
  {
    assert ResolveOrder(st, Guest, 1, 1, A) == Success(Binding(st, 1));
    AddExistingItem(st.db, 1, A, 1);
    assert map[A := 2][A := 2 + 1] == map[A := 3];
  }

  /** Third add: 1 B is a new line, charged 3.50. */
  lemma ThirdAdd(st: State)
    requires Cart1(st, map[A := 3], 2500, 1500)
    ensures var r := AddOrderItem(st, Guest, 1, 1, B, Post(Some(1)));
      r.Success? && Cart1(r.value, map[A := 3, B := 1], 2850, 1850)
  {
    assert ResolveOrder(st, Guest, 1, 1, B) == Success(Binding(st, 1));
    AddNewItem(st.db, 1, B, 1);
  }

  /**
   As written, the cart ends with one line of 3 A and one line of 1 B, whose displayed prices
   sum to 18.50, while the stored total is 28.50: the merge charged the full 3 A again.
   */
  lemma MergeOvercharges()
    ensures var r1 := AddOrderItem(Start(), Guest, 1, 1, A, Post(Some(2)));
      r1.Success? && WellFormed(r1.value.db) &&
      var r2 := AddOrderItem(r1.value, Guest, 1, 1, A, Post(Some(1)));
      r2.Success? && WellFormed(r2.value.db) &&
      var r3 := AddOrderItem(r2.value, Guest, 1, 1, B, Post(Some(1)));
      && r3.Success? && WellFormed(r3.value.db)
      && BoundOrder(r3.value.sessions, Guest) == Some(1)
      && Valid(r3.value.db.orders, 1)
      && Quantities(r3.value.db.orderItems, 1) == map[A := 3, B := 1]
      && r3.value.db.orders[0].total == 2850
      && ViewCart(r3.value, Guest).Success?
      && ViewCart(r3.value, Guest).value.total == 2850
      && Sum(ViewCart(r3.value, Guest).value.lines) == 1850
  {
    FirstAdd();
    var s1 := AddOrderItem(Start(), Guest, 1, 1, A, Post(Some(2))).value;
    SecondAdd(s1);
    var s2 := AddOrderItem(s1, Guest, 1, 1, A, Post(Some(1))).value;
    ThirdAdd(s2);
    var s3 := AddOrderItem(s2, Guest, 1, 1, B, Post(Some(1))).value;
    assert ViewCart(s3, Guest) == Success(CartView(2850, LinesOf(s3.db.items, s3.db.orderItems, 1)));
  }

  /**
   Submitting then completing with id 0 leaves the order submitted and completed, after which
   the owner has no pending order: a second completion reaches the source's failure path.
   */
  lemma SubmitThenComplete(st: State)
    requires WellFormed(st.db) && st.db.owners == {RestaurantOwner(Owner, 1)}
    requires BoundOrder(st.sessions, Guest) == Some(1) && |st.db.orders| == 1
    requires st.db.orders[0].restaurant == 1 && !st.db.orders[0].submitted && !st.db.orders[0].completed
    ensures var s := SubmitOrder(st, Guest);
      s.Success? && |PendingOrders(s.value.db, Owner)| > 0 &&
      var c := CompleteOrder(s.value.db, Owner, 0);
      && c.Success?
      && c.value.orders[0].submitted && c.value.orders[0].completed
      && |PendingOrders(c.value, Owner)| == 0
  {
    var s := SubmitOrder(st, Guest).value;
    assert 1 in PendingOrders(s.db, Owner);
    CompleteDefault(s.db, Owner);
    var c := CompleteOrder(s.db, Owner, 0).value;
    SelectEmpty(c.orders, IsPending(OwnedRestaurants(c, Owner)));
  }
}

=== FILE: wrappers.dfy ===
/** Option and Result values used across the model in place of Python's None and exceptions. */
module Wrappers {

  datatype Option<+T> = None | Some(value: T)

  /** The outcome of a view: a value, or the lookup that aborted the request. */
  datatype Result<+R, +E> = Success(value: R) | Failure(error: E)
}
